=== FILE: README.md ===
# Finder tags: tag codec, localisation and key-press decisions

This project models the core of a Stream Deck plug-in that sets Finder tags
on the files selected in Finder. It covers two source files:

- `Sources/Tags.swift`:
  - the seven-colour palette and its raw colour codes;
  - the label encoding `"<name>\n<code>"` stored in the
    `com.apple.metadata:_kMDItemUserTags` property list, and its lenient
    decoding;
  - the table of localised colour names read from Finder's synced
    preferences;
  - `localize`/`delocalize`;
  - `set` (clear, then write) and `getTags`.
- `Sources/Plugin.swift`:
  - `color(for:)`;
  - `getCommonTags(for:)`;
  - `setTags(_:for:)`;
  - the `keyDown` handler with its four actions: clear tags, colour wheel,
    custom-tag toggle and single-colour toggle.

Modules, in dependency order:

- `Wrappers`: `Option` and `Result`.
- `Text`: the Foundation string operations the source relies on.
  - `capitalized`, modelled as ASCII word capitalisation.
  - `components(separatedBy: "\n")`.
  - `Int(String)`: an optional sign, then decimal digits, within the 64-bit
    range.
  - `starts(with:)`.
  - `replacingOccurrences(of:with: "")`.
- `NameOrder`: lexicographic order on names and a sort on lists of names, as
  used by `sorted()` in `getCommonTags`.
- `Tags`:
  - `Color` and its codes, and the palette `colorTags`;
  - the label codec;
  - the property-list blob, abstracted as either a string array, some other
    property-list value, or malformed data;
  - case-insensitive name matching (`$0.1.capitalized == name.capitalized`).
- `Localization`:
  - the localised colour table, built from the preference entries: entries
    with exactly two keys, colour code 1–7, then a stable sort by code;
  - `localize` and `delocalize`, which take the table as a parameter.
- `TagStore`: each file's tag attribute is modelled as a
  `map<FileId, Blob>`. `Set` clears the attribute, then writes the encoded
  list. Either step can fail, and the failures are given as a parameter.
  `GetTags` reads the attribute back.
- `Reconcile`: the pure decisions of a key press:
  - the common tags of a selection;
  - the colour-wheel palette and its next state;
  - the custom-tag toggle and the colour toggle.
- `Plugin`: the action prefixes; `Decide`, which picks the next tag list
  for an action; `SetTags`, which writes one list to every selected file; and
  `KeyDown`, which puts them together.

Some behaviours of the code are easy to expect otherwise. The model does
what the code does:

- **Common tags.**
  - One might expect the files to be compared by case-insensitive names,
    colours included.
  - `getCommonTags` compares the sorted name lists exactly and ignores
    colours (`Sources/Plugin.swift:35`).
- **Cycling.**
  - One might expect only a file with a single tag to take part in cycling.
  - The code looks up the first current tag, whatever the number of tags
    (`Sources/Plugin.swift:100`).
- **Wheel palette fallback.**
  - One might expect the full palette whenever the wheel setting leaves no
    colour.
  - The code falls back only when the `tags` setting is missing
    (`Sources/Plugin.swift:98`). A setting whose colours are all disabled
    gives an empty palette (`Reconcile.DisabledWheelIsEmpty`), and the wheel
    then always writes no tags.
- **Colour-toggle removal.**
  - The test of whether the tag is present ignores case.
  - The removal keeps every tag whose name is not exactly the colour name
    (`Sources/Plugin.swift:128-129`). A tag that differs only in case is
    therefore neither removed nor added (`Reconcile.CaseVariantIsStuck`).
- **Reading and writing back.**
  - One might expect a tag that a key leaves alone to be written back as it
    was read.
  - Reading delocalises it (`Sources/Tags.swift:114`) and writing localises
    it again (`Sources/Tags.swift:106`). A table entry that is the first of
    its colour survives this (`Localization.LocalizedRoundTrip`).
  - Two other kinds of tag do not survive it:
    - A palette tag takes the table's name: (Red, "Red") under the table
      [(Red, "Rot")] comes back as (Red, "Rot")
      (`Localization.PaletteTagTakesLocalName`).
    - A tag named after another colour's table entry is renamed: (Blue,
      "Rot") under [(Red, "Rot"), (Blue, "Blau")] becomes (Blue, "Blau")
      (`Localization.MismatchedTagRenamed`).
- **Custom-tag alert.** The alert is shown when the `color` setting is
  missing as well as when the `tag` setting is missing or empty
  (`Sources/Plugin.swift:109-111`).
- **Failures.**
  - `setTags` ignores failed writes (`try?`) and carries on with the other
    files.
  - The model returns the set of files whose write failed only so that the
    contract can describe them; the plug-in reports nothing.
- **Empty selection.**
  - A selection that is missing (`nil`) is a no-op.
  - An empty array reaches `getCommonTags`, which traps, when the key is the
    colour-wheel key, a colour key, or a custom key with valid settings. The
    clear key, a custom key with invalid settings and an unknown action never
    call it. See Findings.
- **Round trip.** For names without a newline, labels round-trip exactly,
  not merely up to case (`Tags.RoundTrip`).

## Model

| member | source | states |
|---|---|---|
| Tags.ColorOfCode | Sources/Tags.swift:13-22 | `Color(rawValue:)` succeeds exactly for 0…7, and the colour it gives has that raw value |
| Tags.CodeRoundTrip | Sources/Tags.swift:13-22 | every colour's raw value is at most 7, and mapping it back gives the same colour |
| Tags.PaletteColors | Sources/Tags.swift:24-32 | the palette lists Red, Orange, Yellow, Green, Blue, Purple, Gray, in that order |
| Tags.PaletteHasNoCustom | Sources/Tags.swift:24-32 | no palette entry has the Custom colour |
| Tags.PaletteDistinct | Sources/Tags.swift:24-32 | the palette entries differ pairwise, in colour and in name |
| Tags.PaletteNamesCapitalized | Sources/Tags.swift:24-32 | every palette name is unchanged by `capitalized` |
| Tags.EncodeLabel | Sources/Tags.swift:78 | for a name without a newline, the label splits at newlines into exactly the name and the decimal raw value |
| Tags.DecodeLabel | Sources/Tags.swift:85-89 | the decoded name is the label's text up to the first newline; the colour is the one whose code the second component parses to, when that code is 1…7, and a non-Custom colour arises only that way; a label without a newline decodes to a Custom tag with the whole label as its name |
| Tags.LabelRoundTrip | Sources/Tags.swift:77-89 | decoding an encoded tag whose name has no newline gives the tag back |
| Tags.RoundTrip | Sources/Tags.swift:77-93 | decoding an encoded list of tags whose names have no newline gives the list back, in order |
| Tags.PropertyListData | Sources/Tags.swift:77-80 | the property-list data written for newline-free tags reads back as the same tags |
| Tags.PropertyList | Sources/Tags.swift:82-93 | reading fails exactly on malformed data; a string array reads as its labels decoded one by one, in order; any other property list gives no tags |
| Text.Components | Sources/Tags.swift:86 | `components(separatedBy: "\n")` gives at least one piece, none containing a newline; it gives one piece exactly when there is no newline; the first piece is the text up to the first newline |
| Text.ComponentsJoin | Sources/Tags.swift:86 | joining the pieces with newlines gives the original string back |
| Text.ParseInt | Sources/Tags.swift:87 | `Int(_:)` succeeds exactly on an optional `+` or `-` followed by one or more digits whose signed value fits in 64 bits, and then gives that signed value; anything else (a trailing letter, a lone sign, the empty string) is nil |
| Text.CapitalizeChars | Sources/Plugin.swift:97 | `capitalized` upper-cases exactly the characters that start a word (first, or after a space, tab or line break) and lower-cases every other character |
| Text.CapitalizeIdempotent | Sources/Plugin.swift:125-128 | capitalising a capitalised name changes nothing, so the colour key's case-insensitive test compares the name with its own capitalisation |
| Text.RemoveAll | Sources/Plugin.swift:125 | `replacingOccurrences(of:with: "")` never lengthens the text, and shortens it by at least the pattern's length when the pattern occurs |
| Text.RemoveAllAbsent | Sources/Plugin.swift:125 | a text without the pattern is left as it is |
| Text.StripPrefix | Sources/Plugin.swift:125 | the prefix followed by text free of it leaves exactly that text |
| Text.Decimal | Sources/Tags.swift:78 | the interpolated raw value is one or more digits; a code below ten is exactly its one digit, and a positive value has no leading zero |
| Text.ParseDecimal | Sources/Tags.swift:78-87 | parsing the decimal form of a raw value gives the value back |
| Localization.LabelTag | Sources/Tags.swift:46-50 | a system label gives a non-Custom tag whose raw value is the entry's `l` number and whose name is its `n` string |
| Localization.SystemLabels | Sources/Tags.swift:44-52 | every entry with exactly two keys, a string `n` and an `l` in 1…7 contributes its tag; no other tag appears; none is Custom |
| Localization.SystemLabelsAppend | Sources/Tags.swift:44-52 | the labels of concatenated entry lists are the labels of each part in turn, so the list keeps the entries' order and multiplicity |
| Localization.SystemLabelsCons | Sources/Tags.swift:46-51 | an entry contributes its tag, ahead of the later entries' labels, when it is a system label, and nothing otherwise |
| Localization.SortByCode | Sources/Tags.swift:54 | the sorted table is a permutation of the labels, in non-decreasing colour code |
| Localization.LocalizedColorTags | Sources/Tags.swift:35-57 | unreadable preferences give an empty table; otherwise the table is a permutation of the system labels, sorted by code, with no Custom entry |
| Localization.SortKeepsFirst | Sources/Tags.swift:54-62 | a stable sort keeps, for each colour, the entry that `first(where:)` finds |
| Localization.FirstWithColor | Sources/Tags.swift:62 | `first(where: { $0.0 == c })` is absent exactly when no entry has colour c; otherwise it is the earliest such entry |
| Localization.Localize | Sources/Tags.swift:59-66 | `localize` keeps the colour and returns the tag itself or a table entry; a tag whose name matches a palette name up to case becomes the table's first entry of its colour when there is one; otherwise the tag is unchanged |
| Localization.Delocalize | Sources/Tags.swift:68-75 | `delocalize` keeps the colour and returns the tag itself or a palette entry; a non-Custom tag whose name matches a table name up to case becomes the palette entry of its colour; otherwise the tag is unchanged |
| Localization.PaletteCoversColors | Sources/Tags.swift:24-32 | every colour but Custom has a palette entry |
| Localization.PaletteRoundTrip | Sources/Tags.swift:59-75 | delocalising a localised palette tag gives the palette tag back, whatever the table |
| Localization.LocalizedRoundTrip | Sources/Tags.swift:59-75 | delocalising a table entry that is the first of its colour, then localising the result, gives the entry back |
| Localization.PaletteTagTakesLocalName | Sources/Tags.swift:59-75 | under the table [(Red, "Rot")], the palette tag (Red, "Red") read and written back becomes (Red, "Rot") |
| Localization.MismatchedTagRenamed | Sources/Tags.swift:59-75 | under [(Red, "Rot"), (Blue, "Blau")], the tag (Blue, "Rot") read and written back becomes (Blue, "Blau") |
| Localization.CustomUntouched | Sources/Tags.swift:59-75 | Custom tags are neither localised nor delocalised |
| TagStore.GetTags | Sources/Tags.swift:110-117 | a missing attribute, malformed data or a non-array property list read as no tags; otherwise the colours read are the colours stored |
| TagStore.Set | Sources/Tags.swift:95-108 | `set` touches only its own file; it reports success exactly when the write succeeds; after a failed write the attribute is cleared if the clear succeeded, and untouched otherwise |
| TagStore.SetThenGet | Sources/Tags.swift:95-117 | after a successful `set`, `getTags` returns each tag localised and then delocalised, in order |
| TagStore.SetThenGetPlain | Sources/Tags.swift:95-117 | without localisation, `getTags` returns exactly the tags set |
| TagStore.SetThenGetPaletteAndCustom | Sources/Tags.swift:95-117 | palette tags and Custom tags read back exactly as set, with localisation on and whatever the preferences |
| TagStore.ClearLeavesNoTags | Sources/Tags.swift:95-117 | setting the empty list leaves no tags to read back unless both the clear and the write fail |
| NameOrder.Sort | Sources/Plugin.swift:35 | `sorted()` on names gives a sorted permutation |
| NameOrder.SortedUnique | Sources/Plugin.swift:35 | two sorted permutations of the same names are equal |
| NameOrder.SortEqualIffSameMultiset | Sources/Plugin.swift:35 | two name lists sort to the same list exactly when they hold the same names with the same multiplicities |
| Reconcile.ColorFor | Sources/Plugin.swift:21-23 | `color(for:)` is Custom exactly when no palette name equals the name; otherwise it is the colour of the palette entry with that exact name |
| Reconcile.CommonTagsAsWritten | Sources/Plugin.swift:31-40 | the code as written reaches an answer exactly when the selection is non-empty |
| Reconcile.EmptySelectionTraps | Sources/Plugin.swift:35-36 | on an empty selection the as-written code indexes past the end |
| Reconcile.CommonTags | Sources/Plugin.swift:31-40 | the common tags are the first file's list when every file carries the same names, counted with multiplicity, and no tags otherwise (also for an empty selection) |
| Reconcile.SortComparesNames | Sources/Plugin.swift:35 | comparing the sorted name lists of a selection is comparing their name multisets |
| Reconcile.CommonTagsAgree | Sources/Plugin.swift:31-40 | on every non-empty selection the corrected common tags equal the code's answer |
| Reconcile.DivergentSelection | Sources/Plugin.swift:31-40 | files tagged [Red] and [Blue] have no tags in common |
| Reconcile.PaletteEntryNamed | Sources/Plugin.swift:97 | a palette entry is found exactly when some palette name matches up to case, and the entry found matches |
| Reconcile.WheelSlot | Sources/Plugin.swift:95-97 | a wheel entry contributes at most one tag: a palette tag matching its colour, only when enabled; when enabled and some palette name matches it contributes exactly the palette entry of that name |
| Reconcile.WheelPalette | Sources/Plugin.swift:94-97 | the wheel palette is no longer than the setting and holds only palette tags |
| Reconcile.WheelPaletteComplete | Sources/Plugin.swift:94-97 | every enabled entry whose colour is a palette name up to case puts that palette entry on the wheel |
| Reconcile.WheelPaletteAppend | Sources/Plugin.swift:94-97 | the palette of concatenated settings is the palette of each part in turn, so the cycle follows the setting's order |
| Reconcile.WheelPaletteSingle | Sources/Plugin.swift:95-97 | a one-entry setting gives exactly that entry's contribution |
| Reconcile.CyclePalette | Sources/Plugin.swift:94-98 | the full palette is used exactly when the `tags` setting is missing; otherwise the palette built from the setting, even when it is empty |
| Reconcile.DisabledWheelIsEmpty | Sources/Plugin.swift:94-98 | a wheel setting whose colours are all disabled gives an empty palette, not the full one |
| Reconcile.WheelPaletteDistinct | Sources/Plugin.swift:94-97 | enabled wheel colours that differ up to case give palette names that differ up to case |
| Reconcile.ColorTagsDistinctNames | Sources/Tags.swift:24-32 | the palette names differ even after `capitalized` |
| Reconcile.FirstNameIndex | Sources/Plugin.swift:100 | `firstIndex(where:)` on capitalised names is -1 exactly when no name matches; otherwise it is the earliest matching index |
| Reconcile.NextCycle | Sources/Plugin.swift:99-103 | the next state is at most one palette tag; with no current tag, or an unknown one, it is the first palette entry; after a matched entry it is the next entry, or no tag after the last |
| Reconcile.NextOfEntry | Sources/Plugin.swift:99-103 | on a palette with distinct names, pressing from an entry gives the next entry, or no tag after the last |
| Reconcile.CycleVisitsPalette | Sources/Plugin.swift:99-103 | starting from no tag, the n-th press gives the n-th palette entry |
| Reconcile.CyclePeriod | Sources/Plugin.swift:99-103 | the wheel returns to no tag after one press more than it has colours, and shows a tag at every press in between |
| Reconcile.RemoveMatching | Sources/Plugin.swift:115 | the filter keeps exactly the tags whose names do not match up to case, and keeps the list unchanged when none matches |
| Reconcile.RemoveMatchingAppend | Sources/Plugin.swift:115 | the filter distributes over concatenation, so it keeps the order |
| Reconcile.RemoveExact | Sources/Plugin.swift:129 | the filter keeps exactly the tags whose names are not exactly the colour name |
| Reconcile.RemoveExactAppend | Sources/Plugin.swift:129 | the exact-name filter distributes over concatenation |
| Reconcile.ConfiguredTag | Sources/Plugin.swift:108-112 | the custom tag is missing exactly when the `tag` setting is missing or empty, or `color` is missing; its colour is `color(for:)` of the setting; its name is the setting's, unless delocalisation made it a palette entry, which needs a table name to match; a setting that matches a table name, with a palette colour, becomes that colour's palette entry |
| Reconcile.ToggleCustom | Sources/Plugin.swift:113-118 | if a common tag matches up to case, the result is the order-keeping filter that drops every such tag (see `RemoveMatchingCons`); otherwise the tag is appended; no other tag appears |
| Reconcile.RemoveMatchingCons | Sources/Plugin.swift:115 | the filter drops a matching head and keeps any other head in front of the filtered rest, so order and multiplicity are kept |
| Reconcile.ToggleCustomTwice | Sources/Plugin.swift:113-118 | toggling a custom tag twice from a list that lacks it gives the list back |
| Reconcile.ToggleCustomTwiceFromPresent | Sources/Plugin.swift:113-118 | toggling twice from a list that has the tag leaves the other tags in order and one copy of the tag at the end |
| Reconcile.ToggleColor | Sources/Plugin.swift:124-134 | with a match up to case, the result is the order-keeping filter that drops the tags named exactly the colour; otherwise the colour tag with `color(for:)` is appended |
| Reconcile.RemoveExactCons | Sources/Plugin.swift:129 | the exact filter drops a head named exactly the colour and keeps any other head in front of the filtered rest |
| Reconcile.ToggleColorTwice | Sources/Plugin.swift:124-134 | toggling a colour twice from a list that lacks it gives the list back |
| Reconcile.CaseVariantIsStuck | Sources/Plugin.swift:128-129 | a tag that matches the colour only up to case makes the colour key a no-op |
| Reconcile.GreenOnDivergentSelection | Sources/Plugin.swift:124-134 | toggling Green on files tagged [Red] and [Blue] writes exactly [Green] |
| Reconcile.GreenOnNothing | Sources/Plugin.swift:131-132 | toggling Green on untagged files writes the Green palette tag |
| Plugin.PrefixChars | Sources/Plugin.swift:86-124 | the four action prefixes differ at the characters after `me.hckr.findertags.` |
| Plugin.PrefixesExclusive | Sources/Plugin.swift:86-124 | an action identifier starts with at most one of the four prefixes, so at most one branch of `keyDown` runs |
| Plugin.ActionColorName | Sources/Plugin.swift:125 | the colour name is no longer than the identifier after the prefix; for the prefix followed by a lower-case word it is that word with a capital initial |
| Plugin.WordAction | Sources/Plugin.swift:125 | removing the prefix from the prefix followed by a lower-case word and capitalising gives the word with a capital initial |
| Plugin.ColorKeyActions | Sources/Plugin.swift:125 | each of the seven colour keys `me.hckr.findertags.tag-red` … `tag-gray` names exactly its palette colour |
| Plugin.Decide | Sources/Plugin.swift:82-135 | clear writes no tags; the wheel writes the next cycle state over the configured palette, at most one palette tag; a custom key shows the alert exactly when its settings are invalid and otherwise writes the custom toggle of the configured tag; a colour key writes the colour toggle of its colour name; only a custom key shows the alert; an unknown action does nothing |
| Plugin.SelectionTags | Sources/Plugin.swift:32 | the selection's tags are each file's `getTags`, in selection order |
| Plugin.SetOneEffect | Sources/Tags.swift:95-108 | one `set` writes, clears or leaves its own file and no other |
| Plugin.SetTags | Sources/Plugin.swift:42-46 | every selected file ends written, cleared or untouched according to its faults; unselected files are untouched; the failed files are exactly the selected ones whose write fails |
| Plugin.KeyDown | Sources/Plugin.swift:82-135 | no selection changes nothing; otherwise the decision for the common tags is applied to every selected file and to no other; the alert is shown exactly when the decision is the alert; after a clear, every file whose clear or write succeeded reads back no tags |

## Left out

- Binary property-list serialisation (`PropertyListSerialization`) is abstracted to a `Blob` datatype: a string array, another property-list value, or malformed data.
- Reading the extended attribute, `setResourceValue` and `setExtendedAttributeData` are modelled as one map from file to blob. Whether each clear and write fails is a parameter (`Faults`), since it depends on the file system.
- Reading Finder's synced preferences file and its key path is left out. `LocalizedColorTags` takes the already-read entries, or `None` when any step fails.
- The tagger's table property is computed once, when the tagger is created. The model passes it as an explicit `table` parameter.
- Getting the selection through AppleScript is left out; `KeyDown` receives the selection as a parameter.
- `refreshImage` and `refreshTitle` (images and titles of the keys), `showAlert` itself, the connection manager and the other event callbacks are left out, because they only drive the host UI.
- Force casts (`as! String`, `as! Bool`) in the wheel setting are left out. `WheelEntry` is already typed, so the crash on a badly typed entry is not modelled.
- A non-array wheel setting (`as? [[AnyHashable: Any]]` failing) is modelled as a missing setting (`None`).
- `propertyListData` throwing is not modelled: encoding a string array cannot fail in the model.
- Text.Capitalize: models `capitalized` for ASCII letters only, with words split at space, tab, CR and LF. Full Unicode case mapping and locale rules are left out.
- Swift compares strings by canonical equivalence; the model compares them as sequences of characters.
- Localization.SortByCode: models the table sort as a stable insertion sort. Swift's `sorted` is stable in practice, but its documentation does not promise it.
- TagStore.GetTags: its contract states the colours read back, not the names. The names are covered by `TagStore.SetThenGet` and its variants.
- Tags.RoundTrip: proved only for names without a newline, because a newline in a name is read back as the colour part.
- Plugin.SetTags: the returned set of failed files is an observation only; the source discards failures.

## Findings

| source | as written | input that shows it | evidently intended | confidence | as-written member | corrected member |
|---|---|---|---|---|---|---|
| Sources/Plugin.swift:35-36 | `allSatisfy` over the files' tag lists is vacuously true for an empty selection, and `fileTags[0]` is then read out of range | Finder returns an empty selection (an empty array, not `nil`) and the colour-wheel key, a colour key, or a custom-tag key with valid settings is pressed | an empty selection has no tags in common (and nothing is written) | not executed | Reconcile.EmptySelectionTraps | Reconcile.CommonTags |

=== FILE: localization.dfy ===
/** Swapping a palette tag's English name and the name the system shows for
    it. The table of system names is built from the label entries of Finder's
    synced preferences: entries with exactly the two fields `n` (a string)
    and `l` (an integer 1..7), sorted by colour code. */
module Localization {
  import opened Wrappers
  import opened Text
  import opened Tags

  /** A value of a preference dictionary, as far as the filter can tell. */
  datatype PrefValue = PString(s: string) | PInt(n: int) | POther

  /** One dictionary of Finder's `FinderTags` list. */
  type PrefEntry = map<string, PrefValue>

  /** A system colour label: exactly two fields, a string name under `n` and
      an integer code 1..7 under `l`. */
  predicate IsSystemLabel(e: PrefEntry) {
    |e| == 2 && "n" in e && e["n"].PString? && "l" in e && e["l"].PInt? && 1 <= e["l"].n <= 7
  }

  function LabelTag(e: PrefEntry): (t: Tag)
    requires IsSystemLabel(e)
    ensures t.color != Custom && Code(t.color) == e["l"].n && t.name == e["n"].s
  {
    Tag(ColorOfCode(e["l"].n).value, e["n"].s)
  }

  /** The system labels among the entries, in the entries' order. */
  function SystemLabels(entries: seq<PrefEntry>): (list: seq<Tag>)
    ensures |list| <= |entries|
    ensures forall i :: 0 <= i < |list| ==> list[i].color != Custom
    ensures forall e :: e in entries && IsSystemLabel(e) ==> LabelTag(e) in list
    ensures forall t :: t in list ==> exists e :: e in entries && IsSystemLabel(e) && LabelTag(e) == t
  {
    if entries == [] then []
    else
      var rest := SystemLabels(entries[1..]);
      assert entries == [entries[0]] + entries[1..];
      if IsSystemLabel(entries[0]) then [LabelTag(entries[0])] + rest else rest
  }

  /** Filtering keeps the entries' order: the labels of a concatenation are
      the labels of each part, in turn. */
  lemma {:induction false} SystemLabelsAppend(a: seq<PrefEntry>, b: seq<PrefEntry>)
    ensures SystemLabels(a + b) == SystemLabels(a) + SystemLabels(b)
  {
    if a != [] {
      assert a + b == [a[0]] + (a[1..] + b);
      assert a == [a[0]] + a[1..];
      SystemLabelsAppend(a[1..], b);
      SystemLabelsCons(a[0], a[1..] + b);
      SystemLabelsCons(a[0], a[1..]);
    } else {
      assert a + b == b;
    }
  }

  /** An entry contributes its own tag, in front, when it is a system label,
      and nothing otherwise. */
  lemma SystemLabelsCons(e: PrefEntry, rest: seq<PrefEntry>)
    ensures SystemLabels([e] + rest) == (if IsSystemLabel(e) then [LabelTag(e)] else []) + SystemLabels(rest)
  {
    assert ([e] + rest)[1..] == rest;
  }

  predicate SortedByCode(s: seq<Tag>) {
    forall i, j :: 0 <= i < j < |s| ==> Code(s[i].color) <= Code(s[j].color)
  }

  /** No tag of `s` has a smaller code than `x`. */
  predicate CodeAtMost(x: Tag, s: seq<Tag>) {
    forall t :: t in s ==> Code(x.color) <= Code(t.color)
  }

  lemma SortedByCodeCons(x: Tag, s: seq<Tag>)
    requires SortedByCode(s) && CodeAtMost(x, s)
    ensures SortedByCode([x] + s)
  {
    var r := [x] + s;
    forall i, j | 0 <= i < j < |r| ensures Code(r[i].color) <= Code(r[j].color) {
      assert r[j] == s[j - 1];
      if i > 0 {
        assert r[i] == s[i - 1];
      }
    }
  }

  lemma SortedByCodeHead(s: seq<Tag>)
    requires |s| > 0 && SortedByCode(s)
    ensures CodeAtMost(s[0], s) && SortedByCode(s[1..])
  {
    forall t | t in s ensures Code(s[0].color) <= Code(t.color) {
      var k :| 0 <= k < |s| && s[k] == t;
    }
  }

  lemma SortedByCodeFront(x: Tag, s: seq<Tag>)
    requires SortedByCode(s) && (|s| == 0 || Code(x.color) <= Code(s[0].color))
    ensures CodeAtMost(x, s)
  {
    if |s| > 0 {
      SortedByCodeHead(s);
    }
  }

  /** Put `x` before the first element whose code is not smaller than its own. */
  function InsertByCode(x: Tag, s: seq<Tag>): (r: seq<Tag>)
    requires SortedByCode(s)
    ensures multiset(r) == multiset(s) + multiset{x}
    ensures SortedByCode(r)
  {
    if |s| == 0 || Code(x.color) <= Code(s[0].color) then
      SortedByCodeFront(x, s);
      SortedByCodeCons(x, s);
      [x] + s
    else
      SortedByCodeHead(s);
      var rest := InsertByCode(x, s[1..]);
      assert s == [s[0]] + s[1..];
      CodeAtMostInsert(s[0], x, s[1..], rest);
      SortedByCodeCons(s[0], rest);
      [s[0]] + rest
  }

  /** A lower bound on a list and on `x` bounds the list with `x` added. */
  lemma CodeAtMostInsert(y: Tag, x: Tag, tail: seq<Tag>, r: seq<Tag>)
    requires CodeAtMost(y, tail) && Code(y.color) <= Code(x.color)
    requires multiset(r) == multiset(tail) + multiset{x}
    ensures CodeAtMost(y, r)
  {
    forall t | t in r ensures Code(y.color) <= Code(t.color) {
      assert t in multiset(tail) + multiset{x};
    }
  }

  /** A stable sort by colour code: `sorted { $0.0.rawValue < $1.0.rawValue }`. */
  function SortByCode(s: seq<Tag>): (r: seq<Tag>)
    ensures multiset(r) == multiset(s)
    ensures SortedByCode(r)
  {
    if |s| == 0 then []
    else
      assert s == [s[0]] + s[1..];
      InsertByCode(s[0], SortByCode(s[1..]))
  }

  /** The table of system label names. It is empty when the preferences could
      not be read (`None`); otherwise it holds exactly the system labels,
      sorted by code, so it never holds a Custom entry. */
  function LocalizedColorTags(prefs: Option<seq<PrefEntry>>): (table: seq<Tag>)
    ensures prefs.None? ==> table == []
    ensures prefs.Some? ==> multiset(table) == multiset(SystemLabels(prefs.value))
    ensures SortedByCode(table)
    ensures forall i :: 0 <= i < |table| ==> table[i].color != Custom
  {
    match prefs
    case None => []
    case Some(entries) =>
      var table := SortByCode(SystemLabels(entries));
      assert forall i :: 0 <= i < |table| ==> table[i].color != Custom by {
        forall i | 0 <= i < |table| ensures table[i].color != Custom {
          assert table[i] in multiset(SystemLabels(entries));
        }
      }
      table
  }

  /** `first(where: { $0.0 == c })`: the first tag of the given colour. */
  function FirstWithColor(tags: seq<Tag>, c: Color): (r: Option<Tag>)
    ensures r.None? <==> forall i :: 0 <= i < |tags| ==> tags[i].color != c
    ensures r.Some? ==> exists k :: 0 <= k < |tags| && tags[k] == r.value && r.value.color == c
                                    && forall j :: 0 <= j < k ==> tags[j].color != c
  {
    if tags == [] then None
    else if tags[0].color == c then Some(tags[0])
    else
      var r := FirstWithColor(tags[1..], c);
      assert r.Some? ==> exists k :: 0 <= k < |tags| && tags[k] == r.value && forall j :: 0 <= j < k ==> tags[j].color != c by {
        if r.Some? {
          var k :| 0 <= k < |tags[1..]| && tags[1..][k] == r.value && r.value.color == c
                   && forall j :: 0 <= j < k ==> tags[1..][j].color != c;
          assert tags[k + 1] == r.value;
          forall j | 0 <= j < k + 1 ensures tags[j].color != c {
            if j > 0 { assert tags[j] == tags[1..][j - 1]; }
          }
        }
      }
      r
  }

  /** Looking up a colour in a list with a known head. */
  lemma FirstWithColorCons(t: Tag, rest: seq<Tag>, c: Color)
    ensures FirstWithColor([t] + rest, c) == if t.color == c then Some(t) else FirstWithColor(rest, c)
  {
    assert ([t] + rest)[1..] == rest;
  }

  /** Inserting by code keeps the first tag of every colour: `x` lands before
      the tags whose code equals its own. */
  lemma {:induction false} InsertKeepsFirst(x: Tag, s: seq<Tag>, c: Color)
    requires SortedByCode(s)
    ensures FirstWithColor(InsertByCode(x, s), c) == FirstWithColor([x] + s, c)
  {
    if |s| > 0 && Code(s[0].color) < Code(x.color) {
      SortedByCodeHead(s);
      var s0, s1 := s[0], s[1..];
      assert s == [s0] + s1;
      InsertKeepsFirst(x, s1, c);
      assert InsertByCode(x, s) == [s0] + InsertByCode(x, s1);
      FirstWithColorCons(s0, InsertByCode(x, s1), c);
      FirstWithColorCons(x, s1, c);
      FirstWithColorCons(x, s, c);
      FirstWithColorCons(s0, s1, c);
    }
  }

  /** Because the sort is stable, the name the table gives a colour is the
      first one listed for it in the preferences. */
  lemma {:induction false} SortKeepsFirst(s: seq<Tag>, c: Color)
    ensures FirstWithColor(SortByCode(s), c) == FirstWithColor(s, c)
  {
    if |s| > 0 {
      SortKeepsFirst(s[1..], c);
      InsertKeepsFirst(s[0], SortByCode(s[1..]), c);
      if s[0].color != c {
        assert ([s[0]] + SortByCode(s[1..]))[1..] == SortByCode(s[1..]);
      }
    }
  }

  /** `localize(tag:)`: a tag whose name is, up to capitalisation, a palette
      name takes the table's first entry of the tag's own colour; any other
      tag, or one whose colour the table lacks, is returned unchanged. */
  function Localize(table: seq<Tag>, tag: Tag): (r: Tag)
    ensures r.color == tag.color
    ensures r == tag || r in table
    ensures r != tag ==> ContainsName(ColorTags, tag.name)
    ensures ContainsName(ColorTags, tag.name) && FirstWithColor(table, tag.color).Some? ==>
              r == FirstWithColor(table, tag.color).value
  {
    if ContainsName(ColorTags, tag.name) then
      match FirstWithColor(table, tag.color)
      case Some(t) => t
      case None => tag
    else tag
  }

  /** `delocalize(tag:)`: a tag whose name is, up to capitalisation, a table
      name becomes the palette entry of its own colour; a Custom tag, or any
      other tag, is returned unchanged. */
  function Delocalize(table: seq<Tag>, tag: Tag): (r: Tag)
    ensures r.color == tag.color
    ensures r == tag || r in ColorTags
    ensures r != tag ==> ContainsName(table, tag.name)
    ensures ContainsName(table, tag.name) && tag.color != Custom ==> r in ColorTags
  {
    PaletteCoversColors(tag.color);
    if ContainsName(table, tag.name) then
      match FirstWithColor(ColorTags, tag.color)
      case Some(t) => t
      case None => tag
    else tag
  }

  /** Every colour but Custom has a palette entry. */
  lemma PaletteCoversColors(c: Color)
    ensures c != Custom ==> FirstWithColor(ColorTags, c).Some?
  {
    PaletteColors();
    var cs := Colors(ColorTags);
    if c != Custom {
      var i := match c
        case Red => 0 case Orange => 1 case Yellow => 2 case Green => 3
        case Blue => 4 case Purple => 5 case Gray => 6 case Custom => 0;
      assert cs[i] == c;
    }
  }

  /** The palette entry of a colour is the only palette entry of that colour. */
  lemma PaletteEntryOfColor(i: nat)
    requires i < |ColorTags|
    ensures FirstWithColor(ColorTags, ColorTags[i].color) == Some(ColorTags[i])
  {
    PaletteDistinct();
  }

  /** Localising a palette tag and delocalising the result gives the palette
      tag back, whatever names the table holds. */
  lemma PaletteRoundTrip(table: seq<Tag>, i: nat)
    requires i < |ColorTags|
    ensures Delocalize(table, Localize(table, ColorTags[i])) == ColorTags[i]
  {
    var t := ColorTags[i];
    assert ContainsName(ColorTags, t.name) by { assert ColorTags[i] == t; }
    var l := Localize(table, t);
    PaletteEntryOfColor(i);
    if l != t {
      var k :| 0 <= k < |table| && table[k] == l;
      assert ContainsName(table, l.name) by { assert NameMatches(table[k], l.name); }
    }
  }

  /** Delocalising a table entry and localising the result gives the entry
      back, provided the entry is the table's first of its colour: a tag read
      from a file and written back unchanged keeps its localised name. */
  lemma LocalizedRoundTrip(table: seq<Tag>, k: nat)
    requires k < |table| && table[k].color != Custom
    requires FirstWithColor(table, table[k].color) == Some(table[k])
    ensures Localize(table, Delocalize(table, table[k])) == table[k]
  {
    var l := table[k];
    assert ContainsName(table, l.name) by { assert NameMatches(table[k], l.name); }
    PaletteCoversColors(l.color);
    var p := Delocalize(table, l);
    var i :| 0 <= i < |ColorTags| && ColorTags[i] == p;
    assert ContainsName(ColorTags, p.name) by { assert NameMatches(ColorTags[i], p.name); }
  }

  /** A palette tag read back under a localised table comes back with the
      table's name, so it is not a fixed point of the composition. */
  lemma PaletteTagTakesLocalName()
    ensures Localize([Tag(Red, "Rot")], Delocalize([Tag(Red, "Rot")], Tag(Red, "Red"))) == Tag(Red, "Rot")
  {
    var table := [Tag(Red, "Rot")];
    assert !ContainsName(table, "Red") by {
      assert Capitalize("Rot") != Capitalize("Red") by { CapitalizeChars("Rot"); CapitalizeChars("Red"); }
    }
    assert ContainsName(ColorTags, "Red") by { assert NameMatches(ColorTags[0], "Red"); }
  }

  /** A tag whose name is the table's name of another colour is renamed to its
      own colour's table name once read and written back. */
  lemma MismatchedTagRenamed()
    ensures Localize([Tag(Red, "Rot"), Tag(Blue, "Blau")],
                     Delocalize([Tag(Red, "Rot"), Tag(Blue, "Blau")], Tag(Blue, "Rot")))
            == Tag(Blue, "Blau")
  {
    var table := [Tag(Red, "Rot"), Tag(Blue, "Blau")];
    assert ContainsName(table, "Rot") by { assert NameMatches(table[0], "Rot"); }
    assert ContainsName(table, "Blau") by { assert NameMatches(table[1], "Blau"); }
    assert Delocalize(table, Tag(Blue, "Rot")) == Delocalize(table, table[1]);
    assert FirstWithColor(table, Blue) == Some(table[1]) by {
      assert table[1..] == [Tag(Blue, "Blau")];
    }
    LocalizedRoundTrip(table, 1);
  }

  /** A Custom tag is never localised by a table built from the preferences,
      and never delocalised by any table. */
  lemma CustomUntouched(prefs: Option<seq<PrefEntry>>, table: seq<Tag>, name: string)
    ensures Localize(LocalizedColorTags(prefs), Tag(Custom, name)) == Tag(Custom, name)
    ensures Delocalize(table, Tag(Custom, name)) == Tag(Custom, name)
  {
    PaletteHasNoCustom();
  }
}

=== FILE: name_order.dfy ===
/** The ordering `getCommonTags` sorts tag names by before comparing them, and
    the fact that makes the comparison meaningful: two name lists sort to the
    same list exactly when they hold the same names with the same
    multiplicities. Strings are ordered lexicographically by character. */
module NameOrder {

  /** Lexicographic `a <= b`. */
  predicate Le(a: string, b: string) {
    |a| == 0 || (|b| > 0 && (a[0] < b[0] || (a[0] == b[0] && Le(a[1..], b[1..]))))
  }

  lemma {:induction false} LeTotal(a: string, b: string)
    ensures Le(a, b) || Le(b, a)
  {
    if |a| > 0 && |b| > 0 && a[0] == b[0] {
      LeTotal(a[1..], b[1..]);
    }
  }

  lemma {:induction false} LeAntisymmetric(a: string, b: string)
    requires Le(a, b) && Le(b, a)
    ensures a == b
  {
    if |a| > 0 && |b| > 0 {
      LeAntisymmetric(a[1..], b[1..]);
      assert a == [a[0]] + a[1..] && b == [b[0]] + b[1..];
    }
  }

  lemma {:induction false} LeTransitive(a: string, b: string, c: string)
    requires Le(a, b) && Le(b, c)
    ensures Le(a, c)
  {
    if |a| > 0 && |b| > 0 && |c| > 0 && a[0] == b[0] && b[0] == c[0] {
      LeTransitive(a[1..], b[1..], c[1..]);
    }
  }

  predicate Sorted(s: seq<string>) {
    forall i, j :: 0 <= i < j < |s| ==> Le(s[i], s[j])
  }

  /** `x` is at most every element of `s`. */
  predicate LeAll(x: string, s: seq<string>) {
    forall t :: t in s ==> Le(x, t)
  }

  lemma SortedCons(x: string, s: seq<string>)
    requires Sorted(s) && LeAll(x, s)
    ensures Sorted([x] + s)
  {
    var r := [x] + s;
    forall i, j | 0 <= i < j < |r| ensures Le(r[i], r[j]) {
      assert r[j] == s[j - 1];
      if i > 0 {
        assert r[i] == s[i - 1];
      }
    }
  }

  lemma SortedHead(s: seq<string>)
    requires |s| > 0 && Sorted(s)
    ensures LeAll(s[0], s[1..]) && Sorted(s[1..])
  {
    forall t | t in s[1..] ensures Le(s[0], t) {
      var k :| 0 <= k < |s[1..]| && s[1..][k] == t;
      assert s[k + 1] == t;
    }
  }

  /** Put `x` in front of the first element it does not exceed. */
  function Insert(x: string, s: seq<string>): (r: seq<string>)
    requires Sorted(s)
    ensures multiset(r) == multiset(s) + multiset{x}
    ensures Sorted(r)
  {
    if |s| == 0 || Le(x, s[0]) then
      assert LeAll(x, s) by {
        if |s| > 0 {
          SortedHead(s);
          forall t | t in s ensures Le(x, t) {
            if t != s[0] {
              assert t in s[1..];
              LeTransitive(x, s[0], t);
            }
          }
        }
      }
      SortedCons(x, s);
      [x] + s
    else
      SortedHead(s);
      LeTotal(x, s[0]);
      var rest := Insert(x, s[1..]);
      assert s == [s[0]] + s[1..];
      assert LeAll(s[0], rest) by {
        forall t | t in rest ensures Le(s[0], t) {
          assert t in multiset(rest);
        }
      }
      SortedCons(s[0], rest);
      [s[0]] + rest
  }

  /** Insertion sort, the stand-in for Swift's `sorted()` on names. */
  function Sort(s: seq<string>): (r: seq<string>)
    ensures multiset(r) == multiset(s)
    ensures Sorted(r)
  {
    if |s| == 0 then []
    else
      assert s == [s[0]] + s[1..];
      Insert(s[0], Sort(s[1..]))
  }

  /** The head of a sorted list is at most each of its elements. */
  lemma HeadIsLeast(s: seq<string>, x: string)
    requires Sorted(s) && x in multiset(s)
    ensures Le(s[0], x)
  {
    var k :| 0 <= k < |s| && s[k] == x;
    if k == 0 {
      LeTotal(x, x);
    }
  }

  lemma MultisetTail(a: seq<string>, b: seq<string>)
    requires |a| > 0 && |b| > 0 && a[0] == b[0] && multiset(a) == multiset(b)
    ensures multiset(a[1..]) == multiset(b[1..])
  {
    assert a == [a[0]] + a[1..];
    assert b == [b[0]] + b[1..];
    assert multiset(a) == multiset([a[0]]) + multiset(a[1..]);
    assert multiset(b) == multiset([b[0]]) + multiset(b[1..]);
    forall x ensures multiset(a[1..])[x] == multiset(b[1..])[x] {
      assert multiset(a)[x] == multiset([a[0]])[x] + multiset(a[1..])[x];
      assert multiset(b)[x] == multiset([b[0]])[x] + multiset(b[1..])[x];
    }
  }

  /** A sorted list is determined by its multiset of elements. */
  lemma {:induction false} SortedUnique(a: seq<string>, b: seq<string>)
    requires Sorted(a) && Sorted(b) && multiset(a) == multiset(b)
    ensures a == b
  {
    if |a| == 0 {
      assert |multiset(b)| == 0;
    } else {
      assert a[0] in multiset(b);
      assert b[0] in multiset(a);
      HeadIsLeast(a, b[0]);
      HeadIsLeast(b, a[0]);
      LeAntisymmetric(a[0], b[0]);
      MultisetTail(a, b);
      SortedHead(a);
      SortedHead(b);
      SortedUnique(a[1..], b[1..]);
      assert a == [a[0]] + a[1..];
      assert b == [b[0]] + b[1..];
    }
  }

  /** Comparing sorted name lists is comparing name multisets. */
  lemma SortEqualIffSameMultiset(a: seq<string>, b: seq<string>)
    ensures Sort(a) == Sort(b) <==> multiset(a) == multiset(b)
  {
    if multiset(a) == multiset(b) {
      SortedUnique(Sort(a), Sort(b));
    }
  }
}

=== FILE: plugin.dfy ===
/** A key press end to end: the action identifier picks the operation by
    prefix, the common tags of the selection are read, the next tag list is
    decided, and that list is written to every selected file. */
module Plugin {
  import opened Wrappers
  import opened Text
  import opened Tags
  import opened Localization
  import opened TagStore
  import opened Reconcile

  const ClearPrefix: string := "me.hckr.findertags.clear-tags"
  const WheelPrefix: string := "me.hckr.findertags.color-wheel"
  const CustomPrefix: string := "me.hckr.findertags.custom-tag"
  const TagPrefix: string := "me.hckr.findertags.tag-"

  /** The settings of a key as the key-down handler reads them: the custom
      tag's `tag` and `color` strings and the colour wheel's `tags` list;
      each is `None` when missing or of another type. */
  datatype Settings = Settings(tag: Option<string>, color: Option<string>, wheel: Option<seq<WheelEntry>>)

  /** What a key press does to the selection. */
  datatype Decision = Write(tags: seq<Tag>) | ShowAlert | NoChange

  lemma StartsWithAt(a: string, p: string, k: nat)
    requires StartsWith(a, p) && k < |p|
    ensures a[k] == p[k]
  {
    assert a[..|p|][k] == a[k];
  }

  /** The characters after the common `me.hckr.findertags.` part tell the
      four prefixes apart. */
  lemma PrefixChars(action: string)
    ensures StartsWith(action, ClearPrefix) ==> action[19] == 'c' && action[20] == 'l'
    ensures StartsWith(action, WheelPrefix) ==> action[19] == 'c' && action[20] == 'o'
    ensures StartsWith(action, CustomPrefix) ==> action[19] == 'c' && action[20] == 'u'
    ensures StartsWith(action, TagPrefix) ==> action[19] == 't'
  {
    if StartsWith(action, ClearPrefix) {
      StartsWithAt(action, ClearPrefix, 19);
      StartsWithAt(action, ClearPrefix, 20);
    }
    if StartsWith(action, WheelPrefix) {
      StartsWithAt(action, WheelPrefix, 19);
      StartsWithAt(action, WheelPrefix, 20);
    }
    if StartsWith(action, CustomPrefix) {
      StartsWithAt(action, CustomPrefix, 19);
      StartsWithAt(action, CustomPrefix, 20);
    }
    if StartsWith(action, TagPrefix) {
      StartsWithAt(action, TagPrefix, 19);
    }
  }

  /** The four action prefixes exclude each other, so the handler's
      separate `if`s run at most one branch. */
  lemma PrefixesExclusive(action: string)
    ensures StartsWith(action, ClearPrefix) ==> !StartsWith(action, WheelPrefix) && !StartsWith(action, CustomPrefix) && !StartsWith(action, TagPrefix)
    ensures StartsWith(action, WheelPrefix) ==> !StartsWith(action, CustomPrefix) && !StartsWith(action, TagPrefix)
    ensures StartsWith(action, CustomPrefix) ==> !StartsWith(action, TagPrefix)
  {
    PrefixChars(action);
  }

  /** The colour a `tag-` action stands for: the identifier with every
      occurrence of the prefix removed, capitalised. For an identifier that is
      the prefix followed by a lower-case word, that is the word with its
      initial capitalised. */
  function ActionColorName(action: string): (r: string)
    ensures |r| <= |action|
    ensures StartsWith(action, TagPrefix) ==> |r| <= |action| - |TagPrefix|
    ensures StartsWith(action, TagPrefix) && |action| > |TagPrefix| && LowerFrom(action, |TagPrefix|) ==>
              r == [Upper(action[|TagPrefix|])] + action[|TagPrefix| + 1..]
  {
    if StartsWith(action, TagPrefix) && |action| > |TagPrefix| && LowerFrom(action, |TagPrefix|) then
      var w := action[|TagPrefix|..];
      assert action == TagPrefix + w;
      WordAction(w);
      Capitalize(RemoveAll(action, TagPrefix))
    else
      assert StartsWith(action, TagPrefix) ==> OccursAt(action, TagPrefix, 0);
      Capitalize(RemoveAll(action, TagPrefix))
  }

  /** A lower-case word never contains the prefix, whose third character is
      a dot. */
  lemma WordLacksPrefix(w: string)
    requires LowerFrom(w, 0)
    ensures !Contains(w, TagPrefix)
  {
    if Contains(w, TagPrefix) {
      var i :| 0 <= i <= |w| && OccursAt(w, TagPrefix, i);
      assert w[i + 2] == '.' by { assert w[i..i + |TagPrefix|][2] == TagPrefix[2]; }
      assert false;
    }
  }

  /** The prefix followed by a lower-case word names the word, capitalised. */
  lemma WordAction(w: string)
    requires |w| > 0 && LowerFrom(w, 0)
    ensures Capitalize(RemoveAll(TagPrefix + w, TagPrefix)) == [Upper(w[0])] + w[1..]
  {
    WordLacksPrefix(w);
    StripPrefix(TagPrefix, w);
    CapitalizeWord(w);
  }

  /** The suffixes of the seven colour keys, in palette order. */
  const ColorKeySuffixes: seq<string> := ["red", "orange", "yellow", "green", "blue", "purple", "gray"]

  /** Each colour key, `me.hckr.findertags.tag-` followed by the lower-case
      colour, toggles exactly the palette name of that colour. */
  lemma ColorKeyActions()
    ensures forall i :: 0 <= i < |ColorTags| ==> ActionColorName(TagPrefix + ColorKeySuffixes[i]) == ColorTags[i].name
  {
    forall i | 0 <= i < |ColorTags| ensures ActionColorName(TagPrefix + ColorKeySuffixes[i]) == ColorTags[i].name {
      ColorKeyAction(i);
    }
  }

  lemma ColorKeyAction(i: nat)
    requires i < |ColorTags|
    ensures ActionColorName(TagPrefix + ColorKeySuffixes[i]) == ColorTags[i].name
  {
    SuffixSpellsName(i);
    KeyOfWord(ColorKeySuffixes[i]);
  }

  /** Each suffix is lower case and, with a capital initial, the palette name. */
  lemma SuffixSpellsName(i: nat)
    requires i < |ColorTags|
    ensures |ColorKeySuffixes[i]| > 0 && LowerFrom(ColorKeySuffixes[i], 0)
    ensures [Upper(ColorKeySuffixes[i][0])] + ColorKeySuffixes[i][1..] == ColorTags[i].name
  {
  }

  /** The prefix followed by a lower-case word is a colour key for the word
      with a capital initial. */
  lemma KeyOfWord(w: string)
    requires |w| > 0 && LowerFrom(w, 0)
    ensures ActionColorName(TagPrefix + w) == [Upper(w[0])] + w[1..]
  {
    var a := TagPrefix + w;
    assert StartsWith(a, TagPrefix) by { assert a[..|TagPrefix|] == TagPrefix; }
    assert a[|TagPrefix|..] == w;
    assert LowerFrom(a, |TagPrefix|) by {
      forall k | |TagPrefix| <= k < |a| ensures IsLowerLetter(a[k]) {
        assert a[k] == w[k - |TagPrefix|];
      }
    }
  }

  /** The decision of `keyDown` for a given common tag list. */
  function Decide(action: string, settings: Settings, common: seq<Tag>, table: seq<Tag>): (d: Decision)
    ensures StartsWith(action, ClearPrefix) ==> d == Write([])
    ensures StartsWith(action, WheelPrefix) ==>
              d.Write? && |d.tags| <= 1 && forall i :: 0 <= i < |d.tags| ==> d.tags[i] in ColorTags
    ensures StartsWith(action, CustomPrefix) ==>
              (d.ShowAlert? <==> settings.tag.None? || settings.tag.value == [] || settings.color.None?)
    ensures d.ShowAlert? ==> StartsWith(action, CustomPrefix)
    ensures StartsWith(action, WheelPrefix) ==> d == Write(NextCycle(common, CyclePalette(settings.wheel)))
    ensures StartsWith(action, CustomPrefix) && ConfiguredTag(settings.tag, settings.color, table).Some? ==>
              d == Write(ToggleCustom(common, ConfiguredTag(settings.tag, settings.color, table).value))
    ensures StartsWith(action, TagPrefix) ==> d == Write(ToggleColor(common, ActionColorName(action)))
    ensures (!StartsWith(action, ClearPrefix) && !StartsWith(action, WheelPrefix)
             && !StartsWith(action, CustomPrefix) && !StartsWith(action, TagPrefix)) ==> d == NoChange
  {
    PrefixesExclusive(action);
    if StartsWith(action, ClearPrefix) then Write([])
    else if StartsWith(action, WheelPrefix) then
      var palette := CyclePalette(settings.wheel);
      assert forall i :: 0 <= i < |palette| ==> palette[i] in ColorTags;
      Write(NextCycle(common, palette))
    else if StartsWith(action, CustomPrefix) then
      match ConfiguredTag(settings.tag, settings.color, table)
      case None => ShowAlert
      case Some(tag) => Write(ToggleCustom(common, tag))
    else if StartsWith(action, TagPrefix) then
      Write(ToggleColor(common, ActionColorName(action)))
    else NoChange
  }

  /** The delocalised tags of every selected file, in selection order. */
  function SelectionTags(store: Store, files: seq<FileId>, table: seq<Tag>): (r: seq<seq<Tag>>)
    ensures |r| == |files|
    ensures forall i :: 0 <= i < |files| ==> r[i] == GetTags(store, files[i], table, true)
  {
    if files == [] then [] else [GetTags(store, files[0], table, true)] + SelectionTags(store, files[1..], table)
  }

  /** File `f` has the same attribute in both stores. */
  predicate Unchanged(result: Store, store: Store, f: FileId) {
    (f in result <==> f in store) && (f in store ==> result[f] == store[f])
  }

  /** The state `set` leaves file `f` in: written with `data` when the write
      succeeds, cleared when only the write fails, untouched when both fail. */
  predicate SetEffect(result: Store, store: Store, f: FileId, data: Blob, faults: Faults) {
    if f !in faults.writeFails then f in result && result[f] == data
    else if f !in faults.clearFails then f !in result
    else Unchanged(result, store, f)
  }

  /** `setTags(_:for:)`: the same list is set on every selected file in
      turn. A failed write is ignored and the remaining files are still
      written; the files whose write failed are returned. */
  method SetTags(store: Store, tags: seq<Tag>, files: seq<FileId>, table: seq<Tag>, faults: Faults)
    returns (result: Store, failed: set<FileId>)
    ensures failed == set f | f in files && f in faults.writeFails
    ensures forall f :: f !in files ==> Unchanged(result, store, f)
    ensures forall f :: f in files ==> SetEffect(result, store, f, PropertyListData(LocalizeAll(table, tags)), faults)
  {
    var data := PropertyListData(LocalizeAll(table, tags));
    result := store;
    failed := {};
    var i := 0;
    while i < |files|
      invariant 0 <= i <= |files|
      invariant failed == set f | f in files[..i] && f in faults.writeFails
      invariant forall f :: f !in files[..i] ==> Unchanged(result, store, f)
      invariant forall f :: f in files[..i] ==> SetEffect(result, store, f, data, faults)
    {
      var f := files[i];
      var outcome := Set(result, f, tags, table, true, faults);
      SetOneEffect(result, f, tags, table, faults);
      assert files[..i + 1] == files[..i] + [f];
      SetStep(store, result, outcome.store, f, data, faults, files[..i]);
      FailedStep(files[..i], f, faults.writeFails);
      if !outcome.ok {
        failed := failed + {f};
      }
      result := outcome.store;
      i := i + 1;
    }
    assert files[..i] == files;
  }

  /** One `set` call in `SetTags` affects its own file only. */
  lemma SetOneEffect(store: Store, f: FileId, tags: seq<Tag>, table: seq<Tag>, faults: Faults)
    ensures SetEffect(Set(store, f, tags, table, true, faults).store, store, f, PropertyListData(LocalizeAll(table, tags)), faults)
    ensures forall g :: g != f ==> Unchanged(Set(store, f, tags, table, true, faults).store, store, g)
  {
    var next := Set(store, f, tags, table, true, faults).store;
    forall g | g != f ensures Unchanged(next, store, g) {
      assert g in next <==> g in next - {f};
      assert g in store <==> g in store - {f};
      if g in store {
        assert (next - {f})[g] == (store - {f})[g];
      }
    }
  }

  /** Setting one more file keeps the loop's account of the store. */
  lemma SetStep(store: Store, result: Store, next: Store, f: FileId, data: Blob, faults: Faults, done: seq<FileId>)
    requires forall g :: g in done ==> SetEffect(result, store, g, data, faults)
    requires forall g :: g !in done ==> Unchanged(result, store, g)
    requires SetEffect(next, result, f, data, faults)
    requires forall g :: g != f ==> Unchanged(next, result, g)
    ensures forall g :: g in done + [f] ==> SetEffect(next, store, g, data, faults)
    ensures forall g :: g !in done + [f] ==> Unchanged(next, store, g)
  {
    forall g | g in done + [f] ensures SetEffect(next, store, g, data, faults) {
      if g != f {
        assert g in done;
        assert SetEffect(result, store, g, data, faults);
        assert Unchanged(next, result, g);
      } else if g !in done {
        assert Unchanged(result, store, g);
      } else {
        assert SetEffect(result, store, g, data, faults);
      }
    }
    forall g | g !in done + [f] ensures Unchanged(next, store, g) {
      assert g != f && g !in done;
      assert Unchanged(result, store, g);
      assert Unchanged(next, result, g);
    }
  }

  lemma FailedStep(done: seq<FileId>, f: FileId, fails: set<FileId>)
    ensures (set g | g in done + [f] && g in fails)
            == (set g | g in done && g in fails) + (if f in fails then {f} else {})
  {
  }

  /** `keyDown`: without a selection nothing happens; otherwise the decision
      for the selection's common tags is carried out on every selected file,
      and an invalid custom tag shows the alert without writing anything. */
  method KeyDown(selection: Option<seq<FileId>>, action: string, settings: Settings,
                 store: Store, table: seq<Tag>, faults: Faults)
    returns (result: Store, alert: bool, failed: set<FileId>)
    ensures selection.None? ==> result == store && !alert && failed == {}
    ensures selection.Some? ==>
              var d := Decide(action, settings, CommonTags(SelectionTags(store, selection.value, table)), table);
              && (alert <==> d.ShowAlert?)
              && (!d.Write? ==> result == store && failed == {})
              && (d.Write? ==> forall f :: f in selection.value ==>
                                 SetEffect(result, store, f, PropertyListData(LocalizeAll(table, d.tags)), faults))
              && (d.Write? ==> failed == set f | f in selection.value && f in faults.writeFails)
              && (forall f :: f !in selection.value ==> Unchanged(result, store, f))
    ensures selection.Some? && StartsWith(action, ClearPrefix) ==>
              forall f :: f in selection.value && (f !in faults.writeFails || f !in faults.clearFails) ==>
                GetTags(result, f, table, true) == []
  {
    result, alert, failed := store, false, {};
    if selection.None? {
      return;
    }
    var files := selection.value;
    var common := CommonTags(SelectionTags(store, files, table));
    var d := Decide(action, settings, common, table);
    match d
    case Write(tags) =>
      result, failed := SetTags(store, tags, files, table, faults);
    case ShowAlert =>
      alert := true;
    case NoChange =>
  }
}

=== FILE: reconcile.dfy ===
/** The decisions the plug-in takes on a key press, as pure functions of the
    tags currently on the selection: the tags the selection has in common,
    the next colour of the colour wheel, and the two toggles. */
module Reconcile {
  import opened Wrappers
  import opened Text
  import opened NameOrder
  import opened Tags
  import opened Localization

  /** `color(for:)`: the colour of the palette entry with exactly this name,
      and Custom when there is none. */
  function ColorFor(name: string): (r: Color)
    ensures r == Custom <==> forall i :: 0 <= i < |ColorTags| ==> ColorTags[i].name != name
    ensures forall i :: 0 <= i < |ColorTags| && ColorTags[i].name == name ==> r == ColorTags[i].color
  {
    var k := FirstExactNameIndex(ColorTags, name);
    PaletteHasNoCustom();
    PaletteDistinct();
    if k < 0 then Custom else ColorTags[k].color
  }

  /** The index of the first tag named exactly `name`, or -1. */
  function FirstExactNameIndex(tags: seq<Tag>, name: string): (r: int)
    ensures -1 <= r < |tags|
    ensures r == -1 ==> forall i :: 0 <= i < |tags| ==> tags[i].name != name
    ensures r >= 0 ==> tags[r].name == name && forall j :: 0 <= j < r ==> tags[j].name != name
  {
    if tags == [] then -1
    else if tags[0].name == name then 0
    else
      var r := FirstExactNameIndex(tags[1..], name);
      assert forall i :: 1 <= i < |tags| ==> tags[i] == tags[1..][i - 1];
      if r < 0 then -1 else r + 1
  }

  /** The names of a tag list, in order. */
  function Names(tags: seq<Tag>): (r: seq<string>)
    ensures |r| == |tags|
    ensures forall i :: 0 <= i < |tags| ==> r[i] == tags[i].name
  {
    if tags == [] then [] else [tags[0].name] + Names(tags[1..])
  }

  /** `getCommonTags(for:)` as written: every file's sorted names are
      compared with the first file's, and the first file's list is the
      answer when all agree. On an empty selection `allSatisfy` holds
      vacuously and `fileTags[0]` traps, shown here as `None`. */
  function CommonTagsAsWritten(fileTags: seq<seq<Tag>>): (r: Option<seq<Tag>>)
    ensures r.None? <==> fileTags == []
  {
    if forall k :: 0 <= k < |fileTags| ==> Sort(Names(fileTags[k])) == Sort(Names(fileTags[0])) then
      if |fileTags| == 0 then None else Some(fileTags[0])
    else Some([])
  }

  /** An empty selection makes the as-written comparison index past the end. */
  lemma EmptySelectionTraps()
    ensures CommonTagsAsWritten([]) == None
  {
  }

  /** Every file carries the same names as the first, counted with
      multiplicity; colours and order do not matter. */
  predicate SameNames(fileTags: seq<seq<Tag>>) {
    |fileTags| > 0 && forall k :: 0 <= k < |fileTags| ==> multiset(Names(fileTags[k])) == multiset(Names(fileTags[0]))
  }

  /** The tags a selection has in common: the first file's list, in its own
      order, when every file has the same names, and no tags otherwise. An
      empty selection has no tags in common. */
  function CommonTags(fileTags: seq<seq<Tag>>): (r: seq<Tag>)
    ensures SameNames(fileTags) ==> r == fileTags[0]
    ensures !SameNames(fileTags) ==> r == []
  {
    if |fileTags| > 0 && forall k :: 0 <= k < |fileTags| ==> Sort(Names(fileTags[k])) == Sort(Names(fileTags[0])) then
      SortComparesNames(fileTags);
      fileTags[0]
    else
      if SameNames(fileTags) then
        SortComparesNames(fileTags);
        []
      else []
  }

  /** Comparing sorted name lists across a selection is comparing the
      multisets of names. */
  lemma SortComparesNames(fileTags: seq<seq<Tag>>)
    requires |fileTags| > 0
    ensures (forall k :: 0 <= k < |fileTags| ==> Sort(Names(fileTags[k])) == Sort(Names(fileTags[0])))
            <==> SameNames(fileTags)
  {
    forall k | 0 <= k < |fileTags| {
      SortEqualIffSameMultiset(Names(fileTags[k]), Names(fileTags[0]));
    }
  }

  /** On every non-empty selection the corrected function agrees with the
      code as written. */
  lemma CommonTagsAgree(fileTags: seq<seq<Tag>>)
    requires |fileTags| > 0
    ensures CommonTagsAsWritten(fileTags) == Some(CommonTags(fileTags))
  {
    SortComparesNames(fileTags);
  }

  /** Two files whose names differ have nothing in common. */
  lemma DivergentSelection()
    ensures CommonTags([[Tag(Red, "Red")], [Tag(Blue, "Blue")]]) == []
  {
    var ft := [[Tag(Red, "Red")], [Tag(Blue, "Blue")]];
    assert Names(ft[1]) == ["Blue"] && Names(ft[0]) == ["Red"];
    assert multiset(Names(ft[1])) != multiset(Names(ft[0])) by {
      assert multiset(Names(ft[1]))["Blue"] == 1;
    }
  }

  /** One entry of the colour-wheel setting. */
  datatype WheelEntry = WheelEntry(color: string, enabled: bool)

  /** `colorTags.first(where: { $1.capitalized == name.capitalized })`. */
  function PaletteEntryNamed(name: string): (r: Option<Tag>)
    ensures r.Some? <==> ContainsName(ColorTags, name)
    ensures r.Some? ==> r.value in ColorTags && NameMatches(r.value, name)
  {
    var i := FirstNameIndex(ColorTags, name);
    if i < 0 then None else Some(ColorTags[i])
  }

  /** What one wheel entry contributes to the palette: nothing when it is
      disabled, otherwise the first palette entry whose name matches its
      colour, if any (one step of `compactMap`). */
  function WheelSlot(e: WheelEntry): (r: seq<Tag>)
    ensures |r| <= 1
    ensures forall t :: t in r ==> e.enabled && t in ColorTags && NameMatches(t, e.color)
    ensures e.enabled && ContainsName(ColorTags, e.color) ==> r == [PaletteEntryNamed(e.color).value]
  {
    if e.enabled then
      match PaletteEntryNamed(e.color)
      case Some(t) => [t]
      case None => []
    else []
  }

  /** The enabled wheel entries mapped to palette tags, in setting order;
      names that are not colours are dropped. */
  function WheelPalette(entries: seq<WheelEntry>): (p: seq<Tag>)
    ensures |p| <= |entries|
    ensures forall t :: t in p ==> t in ColorTags
  {
    if entries == [] then [] else WheelSlot(entries[0]) + WheelPalette(entries[1..])
  }

  /** Every enabled entry whose colour is a palette name puts that palette
      entry on the wheel. */
  lemma {:induction false} WheelPaletteComplete(entries: seq<WheelEntry>, k: nat)
    requires k < |entries| && entries[k].enabled && ContainsName(ColorTags, entries[k].color)
    ensures PaletteEntryNamed(entries[k].color).value in WheelPalette(entries)
  {
    WheelPaletteCons(entries[0], entries[1..]);
    assert entries == [entries[0]] + entries[1..];
    if k > 0 {
      assert entries[1..][k - 1] == entries[k];
      WheelPaletteComplete(entries[1..], k - 1);
    }
  }

  /** The wheel keeps the setting's order: the palette of a concatenation is
      the palette of each part, in turn. */
  lemma {:induction false} WheelPaletteAppend(a: seq<WheelEntry>, b: seq<WheelEntry>)
    ensures WheelPalette(a + b) == WheelPalette(a) + WheelPalette(b)
  {
    if a != [] {
      assert a + b == [a[0]] + (a[1..] + b);
      assert a == [a[0]] + a[1..];
      WheelPaletteAppend(a[1..], b);
      WheelPaletteCons(a[0], a[1..] + b);
      WheelPaletteCons(a[0], a[1..]);
    } else {
      assert a + b == b;
    }
  }

  /** The first entry's slot comes first. */
  lemma WheelPaletteCons(e: WheelEntry, rest: seq<WheelEntry>)
    ensures WheelPalette([e] + rest) == WheelSlot(e) + WheelPalette(rest)
  {
    assert ([e] + rest)[1..] == rest;
  }

  /** A single entry contributes exactly its own slot. */
  lemma WheelPaletteSingle(e: WheelEntry)
    ensures WheelPalette([e]) == WheelSlot(e)
  {
    WheelPaletteCons(e, []);
    assert [e] + [] == [e];
  }

  /** The palette the wheel cycles through: the full palette only when the
      `tags` setting is absent. */
  function CyclePalette(wheel: Option<seq<WheelEntry>>): (r: seq<Tag>)
    ensures wheel.None? ==> r == ColorTags
    ensures wheel.Some? ==> r == WheelPalette(wheel.value)
  {
    match wheel
    case None => ColorTags
    case Some(entries) => WheelPalette(entries)
  }

  /** A wheel setting with every colour disabled gives an empty palette; it
      does not fall back to the full one. */
  lemma DisabledWheelIsEmpty(entries: seq<WheelEntry>)
    requires forall k :: 0 <= k < |entries| ==> !entries[k].enabled
    ensures CyclePalette(Some(entries)) == []
  {
    if entries != [] {
      DisabledWheelIsEmpty(entries[1..]);
    }
  }

  /** Each palette entry's capitalised name occurs once. */
  predicate DistinctNames(p: seq<Tag>) {
    forall i, j :: 0 <= i < j < |p| ==> Capitalize(p[i].name) != Capitalize(p[j].name)
  }

  /** The enabled wheel entries name pairwise different colours. */
  predicate DistinctWheel(entries: seq<WheelEntry>) {
    forall i, j :: 0 <= i < j < |entries| && entries[i].enabled && entries[j].enabled ==>
      Capitalize(entries[i].color) != Capitalize(entries[j].color)
  }

  /** Every tag the wheel yields comes from an enabled entry of that name. */
  lemma {:induction false} WheelSource(entries: seq<WheelEntry>, j: nat) returns (k: nat)
    requires j < |WheelPalette(entries)|
    ensures k < |entries| && entries[k].enabled
    ensures NameMatches(WheelPalette(entries)[j], entries[k].color)
  {
    var slot := WheelSlot(entries[0]);
    var tail := entries[1..];
    var rest := WheelPalette(tail);
    assert WheelPalette(entries) == slot + rest;
    if j < |slot| {
      assert slot[j] in slot;
      k := 0;
    } else {
      assert WheelPalette(entries)[j] == rest[j - |slot|];
      var k' := WheelSource(tail, j - |slot|);
      assert tail[k'] == entries[k' + 1];
      k := k' + 1;
    }
  }

  lemma DistinctWheelTail(entries: seq<WheelEntry>)
    requires entries != [] && DistinctWheel(entries)
    ensures DistinctWheel(entries[1..])
  {
    var tail := entries[1..];
    forall i, j | 0 <= i < j < |tail| && tail[i].enabled && tail[j].enabled
      ensures Capitalize(tail[i].color) != Capitalize(tail[j].color) {
      assert tail[i] == entries[i + 1] && tail[j] == entries[j + 1];
    }
  }

  /** The tag the first enabled entry yields differs in name from every tag
      the later entries yield. */
  lemma HeadNotInRest(entries: seq<WheelEntry>, t: Tag, j: nat)
    requires entries != [] && DistinctWheel(entries) && entries[0].enabled
    requires NameMatches(t, entries[0].color)
    requires j < |WheelPalette(entries[1..])|
    ensures Capitalize(t.name) != Capitalize(WheelPalette(entries[1..])[j].name)
  {
    var k := WheelSource(entries[1..], j);
    assert entries[1..][k] == entries[k + 1];
    assert NameMatches(WheelPalette(entries[1..])[j], entries[k + 1].color);
  }

  lemma ConsDistinct(t: Tag, rest: seq<Tag>)
    requires DistinctNames(rest)
    requires forall j :: 0 <= j < |rest| ==> Capitalize(t.name) != Capitalize(rest[j].name)
    ensures DistinctNames([t] + rest)
  {
    var p := [t] + rest;
    forall i, j | 0 <= i < j < |p| ensures Capitalize(p[i].name) != Capitalize(p[j].name) {
      assert p[j] == rest[j - 1];
      if i > 0 { assert p[i] == rest[i - 1]; }
    }
  }

  /** A wheel whose enabled colours differ yields a palette whose names
      differ. */
  lemma {:induction false} WheelPaletteDistinct(entries: seq<WheelEntry>)
    requires DistinctWheel(entries)
    ensures DistinctNames(WheelPalette(entries))
  {
    if entries != [] {
      DistinctWheelTail(entries);
      WheelPaletteDistinct(entries[1..]);
      var slot := WheelSlot(entries[0]);
      var rest := WheelPalette(entries[1..]);
      if |slot| == 1 {
        var t := slot[0];
        assert t in slot;
        assert WheelPalette(entries) == [t] + rest;
        forall j | 0 <= j < |rest| ensures Capitalize(t.name) != Capitalize(rest[j].name) {
          HeadNotInRest(entries, t, j);
        }
        ConsDistinct(t, rest);
      } else {
        assert WheelPalette(entries) == rest;
      }
    }
  }

  /** The full palette's names are distinct even after capitalisation. */
  lemma ColorTagsDistinctNames()
    ensures DistinctNames(ColorTags)
  {
    PaletteNamesCapitalized();
    PaletteDistinct();
  }

  /** `firstIndex(where: { $0.1.capitalized == name.capitalized })`, with -1
      for none. */
  function FirstNameIndex(palette: seq<Tag>, name: string): (r: int)
    ensures -1 <= r < |palette|
    ensures r == -1 <==> !ContainsName(palette, name)
    ensures r >= 0 ==> NameMatches(palette[r], name) && forall j :: 0 <= j < r ==> !NameMatches(palette[j], name)
  {
    if palette == [] then -1
    else if NameMatches(palette[0], name) then 0
    else
      var r := FirstNameIndex(palette[1..], name);
      ContainsNameCons(palette, name);
      if r == -1 then -1
      else
        assert forall j :: 1 <= j < r + 1 ==> palette[j] == palette[1..][j - 1];
        r + 1
  }

  /** The colour wheel's next state: the palette entry after the one that
      the first current tag names, no tag after the last entry, and the first
      entry when there is no current tag or its name is not on the wheel. */
  function NextCycle(tags: seq<Tag>, palette: seq<Tag>): (r: seq<Tag>)
    ensures |r| <= 1 && forall i :: 0 <= i < |r| ==> r[i] in palette
    ensures palette == [] ==> r == []
    ensures palette != [] && (tags == [] || !ContainsName(palette, tags[0].name)) ==> r == [palette[0]]
    ensures tags != [] && ContainsName(palette, tags[0].name) ==>
              var i := FirstNameIndex(palette, tags[0].name);
              r == if i == |palette| - 1 then [] else [palette[i + 1]]
  {
    var index := if |tags| == 0 then -1 else FirstNameIndex(palette, tags[0].name);
    var next := if index == |palette| - 1 then -1 else index + 1;
    if next == -1 then [] else [palette[next]]
  }

  /** The state after `n` presses of the colour-wheel key. */
  function Cycle(tags: seq<Tag>, palette: seq<Tag>, n: nat): seq<Tag> {
    if n == 0 then tags else NextCycle(Cycle(tags, palette, n - 1), palette)
  }

  /** On a palette with distinct names, pressing from no tag visits the
      palette entries in order. */
  lemma {:induction false} CycleVisitsPalette(palette: seq<Tag>, n: nat)
    requires DistinctNames(palette)
    requires 1 <= n <= |palette|
    ensures Cycle([], palette, n) == [palette[n - 1]]
  {
    if n > 1 {
      CycleVisitsPalette(palette, n - 1);
      NextOfEntry(palette, n - 2);
      CycleStep([], palette, n - 1);
    } else {
      CycleStep([], palette, 0);
    }
  }

  lemma CycleStep(tags: seq<Tag>, palette: seq<Tag>, n: nat)
    ensures Cycle(tags, palette, n + 1) == NextCycle(Cycle(tags, palette, n), palette)
  {
  }

  /** On a palette with distinct names, an entry is found at its own index. */
  lemma IndexOfEntry(palette: seq<Tag>, i: nat)
    requires DistinctNames(palette) && i < |palette|
    ensures ContainsName(palette, palette[i].name)
    ensures FirstNameIndex(palette, palette[i].name) == i
  {
    var name := palette[i].name;
    assert NameMatches(palette[i], name);
  }

  /** Pressing the wheel key on a palette entry moves to the next entry, or
      to no tag after the last one. */
  lemma NextOfEntry(palette: seq<Tag>, i: nat)
    requires DistinctNames(palette) && i < |palette|
    ensures NextCycle([palette[i]], palette) == if i == |palette| - 1 then [] else [palette[i + 1]]
  {
    IndexOfEntry(palette, i);
  }

  /** The wheel returns to no tag after exactly one press more than it has
      colours, and has a tag at every press in between. */
  lemma CyclePeriod(palette: seq<Tag>)
    requires DistinctNames(palette)
    ensures Cycle([], palette, |palette| + 1) == []
    ensures forall n :: 1 <= n <= |palette| ==> Cycle([], palette, n) != []
  {
    forall n | 1 <= n <= |palette| ensures Cycle([], palette, n) != [] {
      CycleVisitsPalette(palette, n);
    }
    if |palette| > 0 {
      CycleVisitsPalette(palette, |palette|);
      NextOfEntry(palette, |palette| - 1);
    }
  }

  /** The tags without those whose name matches `name` up to
      capitalisation, in their original order. */
  function RemoveMatching(tags: seq<Tag>, name: string): (r: seq<Tag>)
    ensures |r| <= |tags|
    ensures forall t :: t in r ==> t in tags && !NameMatches(t, name)
    ensures forall t :: t in tags && !NameMatches(t, name) ==> t in r
    ensures !ContainsName(tags, name) ==> r == tags
  {
    if tags == [] then []
    else
      var rest := RemoveMatching(tags[1..], name);
      ContainsNameCons(tags, name);
      assert tags == [tags[0]] + tags[1..];
      if NameMatches(tags[0], name) then rest else [tags[0]] + rest
  }

  /** Removal keeps order: removing from a concatenation removes from each
      part. */
  lemma RemoveMatchingCons(t: Tag, rest: seq<Tag>, name: string)
    ensures RemoveMatching([t] + rest, name) == (if NameMatches(t, name) then [] else [t]) + RemoveMatching(rest, name)
  {
    assert ([t] + rest)[1..] == rest;
  }

  lemma {:induction false} RemoveMatchingAppend(a: seq<Tag>, b: seq<Tag>, name: string)
    ensures RemoveMatching(a + b, name) == RemoveMatching(a, name) + RemoveMatching(b, name)
  {
    if a != [] {
      assert a + b == [a[0]] + (a[1..] + b);
      assert a == [a[0]] + a[1..];
      RemoveMatchingAppend(a[1..], b, name);
      RemoveMatchingCons(a[0], a[1..] + b, name);
      RemoveMatchingCons(a[0], a[1..], name);
    } else {
      assert a + b == b;
    }
  }

  /** The tags without those named exactly `name`, in their original order. */
  function RemoveExact(tags: seq<Tag>, name: string): (r: seq<Tag>)
    ensures |r| <= |tags|
    ensures forall t :: t in r ==> t in tags && t.name != name
    ensures forall t :: t in tags && t.name != name ==> t in r
    ensures (forall t :: t in tags ==> t.name != name) ==> r == tags
  {
    if tags == [] then []
    else
      var rest := RemoveExact(tags[1..], name);
      assert tags == [tags[0]] + tags[1..];
      if tags[0].name == name then rest else [tags[0]] + rest
  }

  /** The custom tag a key is configured with: its `tag` setting must be a
      non-empty string and its `color` setting a string; the tag is then
      delocalised. `None` is the path that shows the alert. */
  function ConfiguredTag(tagSetting: Option<string>, colorSetting: Option<string>, table: seq<Tag>): (r: Option<Tag>)
    ensures r.None? <==> tagSetting.None? || tagSetting.value == [] || colorSetting.None?
    ensures r.Some? ==> r.value.color == ColorFor(colorSetting.value)
    ensures r.Some? ==> r.value.name == tagSetting.value || r.value in ColorTags
    ensures r.Some? && !ContainsName(table, tagSetting.value) ==> r.value.name == tagSetting.value
    ensures r.Some? && ContainsName(table, tagSetting.value) && ColorFor(colorSetting.value) != Custom ==>
              r.value in ColorTags
  {
    match (tagSetting, colorSetting)
    case (Some(name), Some(color)) =>
      if name == [] then None else Some(Delocalize(table, Tag(ColorFor(color), name)))
    case _ => None
  }

  /** Toggling a custom tag: when a common tag matches it up to
      capitalisation every such tag is removed, keeping the others in order;
      otherwise the tag is appended. */
  function ToggleCustom(common: seq<Tag>, tag: Tag): (r: seq<Tag>)
    ensures ContainsName(common, tag.name) ==> |r| < |common| && !ContainsName(r, tag.name)
    ensures ContainsName(common, tag.name) ==>
              forall t :: t in common && !NameMatches(t, tag.name) ==> t in r
    ensures forall t :: t in r ==> t in common || t == tag
    ensures !ContainsName(common, tag.name) ==> r == common + [tag]
    ensures ContainsName(common, tag.name) ==> r == RemoveMatching(common, tag.name)
  {
    if ContainsName(common, tag.name) then
      var r := RemoveMatching(common, tag.name);
      assert |r| < |common| by {
        var i :| 0 <= i < |common| && NameMatches(common[i], tag.name);
        RemoveMatchingShrinks(common, tag.name, i);
      }
      r
    else common + [tag]
  }

  lemma {:induction false} RemoveMatchingShrinks(tags: seq<Tag>, name: string, i: nat)
    requires i < |tags| && NameMatches(tags[i], name)
    ensures |RemoveMatching(tags, name)| < |tags|
  {
    if i > 0 {
      assert tags[1..][i - 1] == tags[i];
      RemoveMatchingShrinks(tags[1..], name, i - 1);
    }
  }

  /** Toggling the same custom tag twice from a list that lacks it gives the
      list back. */
  lemma ToggleCustomTwice(common: seq<Tag>, tag: Tag)
    requires !ContainsName(common, tag.name)
    ensures ToggleCustom(ToggleCustom(common, tag), tag) == common
  {
    var once := common + [tag];
    assert ContainsName(once, tag.name) by { assert NameMatches(once[|common|], tag.name); }
    RemoveMatchingAppend(common, [tag], tag.name);
    assert RemoveMatching([tag], tag.name) == [];
  }

  /** From a list that has it, two toggles leave the other tags in order with
      one copy of the tag at the end. */
  lemma ToggleCustomTwiceFromPresent(common: seq<Tag>, tag: Tag)
    requires ContainsName(common, tag.name)
    ensures ToggleCustom(ToggleCustom(common, tag), tag) == RemoveMatching(common, tag.name) + [tag]
  {
  }

  /** Toggling a palette colour: the test is up to capitalisation, but only
      tags named exactly `colorName` are removed; when none matches, the tag
      `(color(for: colorName), colorName)` is appended. */
  function ToggleColor(common: seq<Tag>, colorName: string): (r: seq<Tag>)
    ensures ContainsName(common, colorName) ==>
              (forall t :: t in r ==> t in common && t.name != colorName)
              && (forall t :: t in common && t.name != colorName ==> t in r)
    ensures !ContainsName(common, colorName) ==> r == common + [Tag(ColorFor(colorName), colorName)]
    ensures ContainsName(common, colorName) ==> r == RemoveExact(common, colorName)
  {
    if ContainsName(common, colorName) then RemoveExact(common, colorName)
    else common + [Tag(ColorFor(colorName), colorName)]
  }

  /** Toggling a colour twice from a list that lacks it gives the list back. */
  lemma ToggleColorTwice(common: seq<Tag>, colorName: string)
    requires !ContainsName(common, colorName)
    ensures ToggleColor(ToggleColor(common, colorName), colorName) == common
  {
    var t := Tag(ColorFor(colorName), colorName);
    var once := common + [t];
    assert ContainsName(once, colorName) by { assert NameMatches(once[|common|], colorName); }
    RemoveExactAppend(common, [t], colorName);
    assert forall i :: 0 <= i < |common| ==> common[i].name != colorName by {
      forall i | 0 <= i < |common| ensures common[i].name != colorName {
        assert !NameMatches(common[i], colorName);
      }
    }
  }

  lemma RemoveExactCons(t: Tag, rest: seq<Tag>, name: string)
    ensures RemoveExact([t] + rest, name) == (if t.name == name then [] else [t]) + RemoveExact(rest, name)
  {
    assert ([t] + rest)[1..] == rest;
  }

  lemma {:induction false} RemoveExactAppend(a: seq<Tag>, b: seq<Tag>, name: string)
    ensures RemoveExact(a + b, name) == RemoveExact(a, name) + RemoveExact(b, name)
  {
    if a != [] {
      assert a + b == [a[0]] + (a[1..] + b);
      assert a == [a[0]] + a[1..];
      RemoveExactAppend(a[1..], b, name);
      RemoveExactCons(a[0], a[1..] + b, name);
      RemoveExactCons(a[0], a[1..], name);
    } else {
      assert a + b == b;
    }
  }

  /** A tag that matches the colour only up to capitalisation makes the key
      neither remove nor add anything. */
  lemma CaseVariantIsStuck(common: seq<Tag>, colorName: string)
    requires ContainsName(common, colorName)
    requires forall t :: t in common ==> t.name != colorName
    ensures ToggleColor(common, colorName) == common
  {
  }

  /** Toggling Green on a selection with nothing in common gives exactly
      the Green tag. */
  lemma GreenOnDivergentSelection()
    ensures ToggleColor(CommonTags([[Tag(Red, "Red")], [Tag(Blue, "Blue")]]), "Green") == [Tag(Green, "Green")]
  {
    DivergentSelection();
    GreenOnNothing();
  }

  lemma GreenOnNothing()
    ensures ToggleColor([], "Green") == [Tag(Green, "Green")]
  {
    assert ColorTags[3] == Tag(Green, "Green");
    assert ColorFor("Green") == Green;
  }
}

=== FILE: tag_store.dfy ===
/** Reading and replacing the tag list of one file. Files are keys of an
    abstract store that maps each file to the bytes of its tag attribute;
    the two I/O channels of the plug-in (the resource-value clear and the
    extended-attribute write) become updates of that map, and their failures
    are named by a `Faults` parameter. */
module TagStore {
  import opened Wrappers
  import opened Text
  import opened Tags
  import opened Localization

  /** A file, identified by its path. */
  type FileId = string

  /** The tag attribute of every file that has one. */
  type Store = map<FileId, Blob>

  /** The files whose clearing call, and whose attribute write, fails. */
  datatype Faults = Faults(clearFails: set<FileId>, writeFails: set<FileId>)

  /** The store after a `set`, and whether the write went through. */
  datatype SetOutcome = SetOutcome(store: Store, ok: bool)

  function LocalizeAll(table: seq<Tag>, tags: seq<Tag>): (r: seq<Tag>)
    ensures |r| == |tags|
    ensures forall i :: 0 <= i < |tags| ==> r[i] == Localize(table, tags[i])
  {
    if tags == [] then [] else [Localize(table, tags[0])] + LocalizeAll(table, tags[1..])
  }

  function DelocalizeAll(table: seq<Tag>, tags: seq<Tag>): (r: seq<Tag>)
    ensures |r| == |tags|
    ensures forall i :: 0 <= i < |tags| ==> r[i] == Delocalize(table, tags[i])
  {
    if tags == [] then [] else [Delocalize(table, tags[0])] + DelocalizeAll(table, tags[1..])
  }

  /** `getTags(from:delocalization:)`: a missing attribute or bytes that are
      not a property list read as no tags; otherwise the decoded labels,
      delocalised when asked to. */
  function GetTags(store: Store, f: FileId, table: seq<Tag>, delocalization: bool): (r: seq<Tag>)
    ensures f !in store || store[f].Malformed? ==> r == []
    ensures f in store && store[f].Plist? && store[f].value.OtherValue? ==> r == []
    ensures f in store && store[f].Plist? && store[f].value.StringArray? ==>
              Colors(r) == Colors(Decode(store[f].value.strings))
  {
    if f in store then
      match PropertyList(store[f])
      case Success(tags) => if delocalization then DelocalizeAll(table, tags) else tags
      case Failure(_) => []
    else []
  }

  /** `set(tags:to:localization:)`: first clear the file's tags, then write
      the (localised) encoding. A failed clear is ignored; a failed write is
      reported, and leaves the file cleared when the clear went through. No
      other file is touched. */
  function Set(store: Store, f: FileId, tags: seq<Tag>, table: seq<Tag>, localization: bool, faults: Faults): (r: SetOutcome)
    ensures r.store - {f} == store - {f}
    ensures r.ok <==> f !in faults.writeFails
    ensures r.ok ==> f in r.store && r.store[f].Plist? && r.store[f].value.StringArray?
    ensures !r.ok && f !in faults.clearFails ==> f !in r.store
    ensures !r.ok && f in faults.clearFails ==> r.store == store
  {
    var cleared := if f in faults.clearFails then store else store - {f};
    if f in faults.writeFails then SetOutcome(cleared, false)
    else
      var written := if localization then LocalizeAll(table, tags) else tags;
      SetOutcome(cleared[f := PropertyListData(written)], true)
  }

  /** Whatever the store held before, a successful `set` followed by
      `getTags` yields each tag localised and then delocalised, in order,
      provided no name involved contains a newline. */
  lemma SetThenGet(store: Store, f: FileId, tags: seq<Tag>, table: seq<Tag>, faults: Faults)
    requires f !in faults.writeFails
    requires NewlineFree(tags) && NewlineFree(table)
    ensures GetTags(Set(store, f, tags, table, true, faults).store, f, table, true)
            == DelocalizeAll(table, LocalizeAll(table, tags))
  {
    var written := LocalizeAll(table, tags);
    assert NewlineFree(written) by {
      forall i | 0 <= i < |written| ensures Newline !in written[i].name {
        assert written[i] == tags[i] || written[i] in table;
      }
    }
  }

  /** Without localisation the stored list is read back exactly. */
  lemma SetThenGetPlain(store: Store, f: FileId, tags: seq<Tag>, table: seq<Tag>, faults: Faults)
    requires f !in faults.writeFails && NewlineFree(tags)
    ensures GetTags(Set(store, f, tags, table, false, faults).store, f, table, false) == tags
  {
  }

  /** Palette tags and Custom tags survive a `set` and `getTags` unchanged
      when the table was built from the preferences. */
  lemma SetThenGetPaletteAndCustom(store: Store, f: FileId, tags: seq<Tag>, prefs: Option<seq<PrefEntry>>, faults: Faults)
    requires f !in faults.writeFails
    requires NewlineFree(tags) && NewlineFree(LocalizedColorTags(prefs))
    requires forall i :: 0 <= i < |tags| ==> tags[i] in ColorTags || tags[i].color == Custom
    ensures GetTags(Set(store, f, tags, LocalizedColorTags(prefs), true, faults).store, f, LocalizedColorTags(prefs), true) == tags
  {
    var table := LocalizedColorTags(prefs);
    SetThenGet(store, f, tags, table, faults);
    var r := DelocalizeAll(table, LocalizeAll(table, tags));
    forall i | 0 <= i < |tags| ensures r[i] == tags[i] {
      if tags[i] in ColorTags {
        var k :| 0 <= k < |ColorTags| && ColorTags[k] == tags[i];
        PaletteRoundTrip(table, k);
      } else {
        CustomUntouched(prefs, table, tags[i].name);
      }
    }
  }

  /** Clearing before writing: however many tags a file had, setting the
      empty list leaves it with none, and so does a failed write once the
      clear went through. */
  lemma ClearLeavesNoTags(store: Store, f: FileId, table: seq<Tag>, faults: Faults)
    requires f !in faults.writeFails || f !in faults.clearFails
    ensures GetTags(Set(store, f, [], table, true, faults).store, f, table, true) == []
  {
  }
}

=== FILE: tags.dfy ===
/** Tag values: the closed colour enumeration with its on-disk codes, the
    fixed seven-colour palette, and the label codec that turns each tag into
    the string `name + "\n" + code` and reads such strings back leniently. */
module Tags {
  import opened Wrappers
  import opened Text

  /** Finder's label colours. */
  datatype Color = Custom | Gray | Green | Purple | Blue | Yellow | Red | Orange

  /** The raw value of a colour, the digit stored after the newline. */
  function Code(c: Color): nat {
    match c
    case Custom => 0
    case Gray => 1
    case Green => 2
    case Purple => 3
    case Blue => 4
    case Yellow => 5
    case Red => 6
    case Orange => 7
  }

  /** `Color(rawValue:)`: the colour with the given code, if there is one. */
  function ColorOfCode(n: int): (r: Option<Color>)
    ensures r.Some? <==> 0 <= n <= 7
    ensures r.Some? ==> Code(r.value) == n
  {
    if n == 0 then Some(Custom)
    else if n == 1 then Some(Gray)
    else if n == 2 then Some(Green)
    else if n == 3 then Some(Purple)
    else if n == 4 then Some(Blue)
    else if n == 5 then Some(Yellow)
    else if n == 6 then Some(Red)
    else if n == 7 then Some(Orange)
    else None
  }

  /** Codes and colours are in one-to-one correspondence on 0..7. */
  lemma CodeRoundTrip(c: Color)
    ensures Code(c) <= 7
    ensures ColorOfCode(Code(c)) == Some(c)
  {
  }

  /** A tag is a colour with a name. */
  datatype Tag = Tag(color: Color, name: string)

  /** `colorTags`: the palette in its display and cycling order. */
  const ColorTags: seq<Tag> := [
    Tag(Red, "Red"),
    Tag(Orange, "Orange"),
    Tag(Yellow, "Yellow"),
    Tag(Green, "Green"),
    Tag(Blue, "Blue"),
    Tag(Purple, "Purple"),
    Tag(Gray, "Gray")
  ]

  /** The palette lists the non-Custom colours, each once, in the order
      Red, Orange, Yellow, Green, Blue, Purple, Gray. */
  lemma PaletteColors()
    ensures Colors(ColorTags) == [Red, Orange, Yellow, Green, Blue, Purple, Gray]
  {
    var cs := Colors(ColorTags);
    assert cs[0] == Red && cs[1] == Orange && cs[2] == Yellow && cs[3] == Green;
    assert cs[4] == Blue && cs[5] == Purple && cs[6] == Gray;
  }

  /** No palette entry is Custom. */
  lemma PaletteHasNoCustom()
    ensures forall i :: 0 <= i < |ColorTags| ==> ColorTags[i].color != Custom
  {
  }

  /** No two palette entries share a colour or a name. */
  lemma PaletteDistinct()
    ensures forall i, j :: 0 <= i < j < |ColorTags| ==> ColorTags[i].color != ColorTags[j].color
    ensures forall i, j :: 0 <= i < j < |ColorTags| ==> ColorTags[i].name != ColorTags[j].name
  {
  }

  /** The colours of a tag list, in order. */
  function Colors(tags: seq<Tag>): (cs: seq<Color>)
    ensures |cs| == |tags|
    ensures forall i :: 0 <= i < |tags| ==> cs[i] == tags[i].color
  {
    if tags == [] then [] else [tags[0].color] + Colors(tags[1..])
  }

  /** The palette's names are single capitalised ASCII words, so each is its
      own capitalisation and their capitalisations are pairwise distinct. */
  lemma PaletteNamesCapitalized()
    ensures forall i :: 0 <= i < |ColorTags| ==> Capitalize(ColorTags[i].name) == ColorTags[i].name
  {
    WarmNamesCapitalized();
    CoolNamesCapitalized();
  }

  lemma WarmNamesCapitalized()
    ensures Capitalize("Red") == "Red" && Capitalize("Orange") == "Orange"
    ensures Capitalize("Yellow") == "Yellow"
  {
    CapitalizeWord("Red");
    CapitalizeWord("Orange");
    CapitalizeWord("Yellow");
  }

  lemma CoolNamesCapitalized()
    ensures Capitalize("Green") == "Green" && Capitalize("Blue") == "Blue"
    ensures Capitalize("Purple") == "Purple" && Capitalize("Gray") == "Gray"
  {
    CapitalizeWord("Green");
    CapitalizeWord("Blue");
    CapitalizeWord("Purple");
    CapitalizeWord("Gray");
  }

  predicate NewlineFree(tags: seq<Tag>) {
    forall i :: 0 <= i < |tags| ==> Newline !in tags[i].name
  }

  /** One tag as a label string: its name, a newline, its decimal code. */
  function EncodeLabel(t: Tag): (s: string)
    ensures Newline !in t.name ==> Components(s) == [t.name, Decimal(Code(t.color))]
  {
    var code := Decimal(Code(t.color));
    var s := t.name + [Newline] + code;
    if Newline !in t.name then
      ComponentsOfNewlineFreeHead(t.name, code);
      ComponentsOfNewlineFree(code);
      s
    else s
  }

  /** The label strings written for a tag list: one per tag, in order. */
  function Encode(tags: seq<Tag>): (labels: seq<string>)
    ensures |labels| == |tags|
    ensures forall i :: 0 <= i < |tags| ==> labels[i] == EncodeLabel(tags[i])
  {
    if tags == [] then [] else [EncodeLabel(tags[0])] + Encode(tags[1..])
  }

  /** One label read back: the name is the text before the first newline;
      the colour is the second component's code when that parses to a valid
      code, and Custom otherwise. */
  function DecodeLabel(s: string): (t: Tag)
    ensures Newline !in t.name
    ensures t.name <= s && (t.name == s || s[|t.name|] == Newline)
    ensures Newline !in s ==> t == Tag(Custom, s)
    ensures t.color != Custom ==>
              |Components(s)| >= 2 && ParseInt(Components(s)[1]) == Some(Code(t.color) as int)
    ensures |Components(s)| >= 2 && ParseInt(Components(s)[1]).Some? && 1 <= ParseInt(Components(s)[1]).value <= 7 ==>
              Code(t.color) == ParseInt(Components(s)[1]).value
  {
    var parts := Components(s);
    var code := if |parts| >= 2 then (match ParseInt(parts[1]) case Some(n) => n case None => 0) else 0;
    var color := match ColorOfCode(code) case Some(c) => c case None => Custom;
    Tag(color, parts[0])
  }

  function Decode(labels: seq<string>): (tags: seq<Tag>)
    ensures |tags| == |labels|
    ensures forall i :: 0 <= i < |labels| ==> tags[i] == DecodeLabel(labels[i])
  {
    if labels == [] then [] else [DecodeLabel(labels[0])] + Decode(labels[1..])
  }

  /** A label written for a tag with a newline-free name reads back as that tag. */
  lemma LabelRoundTrip(t: Tag)
    requires Newline !in t.name
    ensures DecodeLabel(EncodeLabel(t)) == t
  {
    CodeRoundTrip(t.color);
    ParseDecimal(Code(t.color));
  }

  /** Decoding the encoding of newline-free tags gives them back exactly. */
  lemma RoundTrip(tags: seq<Tag>)
    requires NewlineFree(tags)
    ensures Decode(Encode(tags)) == tags
  {
    forall i | 0 <= i < |tags| ensures DecodeLabel(Encode(tags)[i]) == tags[i] {
      LabelRoundTrip(tags[i]);
    }
  }

  /** A property-list value as it is found in the tag attribute. */
  datatype PlistValue = StringArray(strings: seq<string>) | OtherValue

  /** The bytes of the tag attribute: a property list, or bytes that do not
      parse as one. */
  datatype Blob = Plist(value: PlistValue) | Malformed

  datatype DecodeError = NotAPropertyList

  /** `propertyListData(tags:)`: the label strings as a property-list array. */
  function PropertyListData(tags: seq<Tag>): (b: Blob)
    ensures NewlineFree(tags) ==> PropertyList(b) == Success(tags)
  {
    var b := Plist(StringArray(Encode(tags)));
    if NewlineFree(tags) then RoundTrip(tags); b else b
  }

  /** `propertyList(data:)`: unparseable bytes throw; a property list that is
      not an array of strings reads as no tags; otherwise each label decodes. */
  function PropertyList(b: Blob): (r: Result<seq<Tag>, DecodeError>)
    ensures r.Failure? <==> b.Malformed?
    ensures b.Plist? && b.value.OtherValue? ==> r == Success([])
    ensures b.Plist? && b.value.StringArray? ==> r == Success(Decode(b.value.strings))
  {
    match b
    case Malformed => Failure(NotAPropertyList)
    case Plist(StringArray(labels)) => Success(Decode(labels))
    case Plist(OtherValue) => Success([])
  }

  /** Two names are the same up to `capitalized`. */
  predicate NameMatches(t: Tag, name: string) {
    Capitalize(t.name) == Capitalize(name)
  }

  /** `tags.contains(where: { $0.1.capitalized == name.capitalized })`. */
  predicate ContainsName(tags: seq<Tag>, name: string) {
    exists i :: 0 <= i < |tags| && NameMatches(tags[i], name)
  }

  /** A list contains a name when its head or its tail does. */
  lemma ContainsNameCons(tags: seq<Tag>, name: string)
    requires tags != []
    ensures ContainsName(tags, name) <==> NameMatches(tags[0], name) || ContainsName(tags[1..], name)
  {
    if ContainsName(tags[1..], name) {
      var i :| 0 <= i < |tags[1..]| && NameMatches(tags[1..][i], name);
      assert tags[i + 1] == tags[1..][i];
    }
    if ContainsName(tags, name) && !NameMatches(tags[0], name) {
      var i :| 0 <= i < |tags| && NameMatches(tags[i], name);
      assert tags[1..][i - 1] == tags[i];
    }
  }
}

=== FILE: text.dfy ===
/** The few pieces of Foundation string behaviour the plug-in relies on:
    `capitalized`, `components(separatedBy:)`, `Int(_:)`, decimal
    interpolation, `starts(with:)` and `replacingOccurrences(of:with:)`. */
module Text {
  import opened Wrappers

  const Newline: char := '\n'

  const Int64Min: int := -0x8000_0000_0000_0000
  const Int64Max: int := 0x7FFF_FFFF_FFFF_FFFF

  /** The word delimiters of `capitalized`: spaces, tabs and line terminators. */
  predicate IsSpace(c: char) {
    c == ' ' || c == '\t' || c == '\n' || c == '\r'
  }

  function Upper(c: char): char {
    if 'a' <= c <= 'z' then (c as int - 32) as char else c
  }

  function Lower(c: char): char {
    if 'A' <= c <= 'Z' then (c as int + 32) as char else c
  }

  /** A character starts a word when it is first or follows a delimiter. */
  predicate StartsWord(s: string, i: nat)
    requires i < |s|
  {
    i == 0 || IsSpace(s[i - 1])
  }

  /** ASCII model of `String.capitalized`: the first character of every word
      upper-cased and every other character lower-cased. */
  function Capitalize(s: string): (r: string)
    ensures |r| == |s|
  {
    CapitalizeFrom(s, true)
  }

  /** Character by character: a word's first character is upper-cased and
      every other character lower-cased. */
  lemma CapitalizeChars(s: string)
    ensures forall i :: 0 <= i < |s| ==>
              Capitalize(s)[i] == if StartsWord(s, i) then Upper(s[i]) else Lower(s[i])
  {
  }

  function CapitalizeFrom(s: string, wordStart: bool): (r: string)
    ensures |r| == |s|
    ensures |s| > 0 ==> r[0] == if wordStart then Upper(s[0]) else Lower(s[0])
    ensures forall i :: 1 <= i < |s| ==> r[i] == if IsSpace(s[i - 1]) then Upper(s[i]) else Lower(s[i])
  {
    if s == [] then []
    else
      var rest := CapitalizeFrom(s[1..], IsSpace(s[0]));
      assert forall i :: 1 <= i < |s| ==> s[1..][i - 1] == s[i];
      [if wordStart then Upper(s[0]) else Lower(s[0])] + rest
  }

  /** Case changes keep the word delimiters where they are. */
  lemma CaseKeepsSpaces(c: char)
    ensures IsSpace(Upper(c)) <==> IsSpace(c)
    ensures IsSpace(Lower(c)) <==> IsSpace(c)
    ensures Upper(Upper(c)) == Upper(c) && Lower(Lower(c)) == Lower(c)
  {
  }

  /** Capitalising twice is capitalising once. */
  lemma CapitalizeIdempotent(s: string)
    ensures Capitalize(Capitalize(s)) == Capitalize(s)
  {
    var r := Capitalize(s);
    var r2 := Capitalize(r);
    CapitalizeChars(s);
    CapitalizeChars(r);
    forall i | 0 <= i < |s| ensures r2[i] == r[i] {
      CaseKeepsSpaces(s[i]);
      if i > 0 {
        CaseKeepsSpaces(s[i - 1]);
        assert StartsWord(r, i) <==> StartsWord(s, i);
      }
    }
  }

  predicate IsLowerLetter(c: char) {
    'a' <= c <= 'z'
  }

  /** Every character from position `from` on is a lower-case ASCII letter. */
  predicate LowerFrom(s: string, from: nat) {
    forall i :: from <= i < |s| ==> IsLowerLetter(s[i])
  }

  lemma {:induction false} CapitalizeLowerTail(s: string)
    requires LowerFrom(s, 0)
    ensures CapitalizeFrom(s, false) == s
  {
    if s != [] {
      CapitalizeLowerTail(s[1..]);
    }
  }

  /** A single ASCII word whose first letter is the only capital is its own
      capitalisation; a lower-case word gains just its initial capital. */
  lemma CapitalizeWord(s: string)
    requires |s| > 0 && LowerFrom(s, 1) && ('A' <= s[0] <= 'Z' || IsLowerLetter(s[0]))
    ensures Capitalize(s) == [Upper(s[0])] + s[1..]
  {
    CapitalizeLowerTail(s[1..]);
  }

  /** `components(separatedBy: "\n")`: the pieces between newlines, never empty. */
  function Components(s: string): (r: seq<string>)
    ensures |r| >= 1
    ensures forall i :: 0 <= i < |r| ==> Newline !in r[i]
    ensures |r| == 1 <==> Newline !in s
    ensures r[0] <= s && (r[0] == s || s[|r[0]|] == Newline)
  {
    if s == [] then [[]]
    else if s[0] == Newline then [[]] + Components(s[1..])
    else
      var rest := Components(s[1..]);
      [[s[0]] + rest[0]] + rest[1..]
  }

  /** Joining the pieces with newlines gives the string back. */
  function JoinLines(parts: seq<string>): string
    requires |parts| >= 1
  {
    if |parts| == 1 then parts[0] else parts[0] + [Newline] + JoinLines(parts[1..])
  }

  lemma {:induction false} ComponentsJoin(s: string)
    ensures JoinLines(Components(s)) == s
  {
    if s == [] {
    } else if s[0] == Newline {
      ComponentsJoin(s[1..]);
    } else {
      ComponentsJoin(s[1..]);
      var rest := Components(s[1..]);
      if |rest| == 1 {
      } else {
        assert JoinLines(rest) == rest[0] + [Newline] + JoinLines(rest[1..]);
        assert JoinLines(rest[1..]) == JoinLines(([[s[0]] + rest[0]] + rest[1..])[1..]);
      }
    }
  }

  /** A newline-free head followed by a newline splits off exactly that head. */
  lemma {:induction false} ComponentsOfNewlineFreeHead(a: string, b: string)
    requires Newline !in a
    ensures Components(a + [Newline] + b) == [a] + Components(b)
  {
    if a == [] {
      assert a + [Newline] + b == [Newline] + b;
      assert ([Newline] + b)[1..] == b;
    } else {
      assert (a + [Newline] + b)[1..] == a[1..] + [Newline] + b;
      ComponentsOfNewlineFreeHead(a[1..], b);
      assert [a[0]] + a[1..] == a;
    }
  }

  lemma {:induction false} ComponentsOfNewlineFree(s: string)
    requires Newline !in s
    ensures Components(s) == [s]
  {
  }

  predicate IsDigit(c: char) {
    '0' <= c <= '9'
  }

  predicate AllDigits(s: string) {
    forall i :: 0 <= i < |s| ==> IsDigit(s[i])
  }

  function DigitValue(c: char): nat
    requires IsDigit(c)
  {
    c as int - '0' as int
  }

  function DigitChar(d: nat): (c: char)
    requires d < 10
    ensures IsDigit(c) && DigitValue(c) == d
  {
    ('0' as int + d) as char
  }

  /** The value of a run of decimal digits, most significant first. */
  function DigitsValue(s: string): nat
    requires AllDigits(s)
  {
    if s == [] then 0 else DigitsValue(s[..|s| - 1]) * 10 + DigitValue(s[|s| - 1])
  }

  /** Swift's `Int(_: String)`: an optional `+` or `-`, then one or more ASCII
      digits, and a value that fits in 64 bits; anything else is `nil`. */
  function ParseInt(s: string): (r: Option<int>)
    ensures r.Some? ==> Int64Min <= r.value <= Int64Max
    ensures r.Some? ==> |s| > 0 && (IsDigit(s[0]) || s[0] == '+' || s[0] == '-')
    ensures |s| > 0 && IsDigit(s[0]) ==>
              (r.Some? <==> AllDigits(s) && DigitsValue(s) <= Int64Max)
              && (r.Some? ==> r.value == DigitsValue(s))
    ensures |s| > 0 && s[0] == '+' ==>
              (r.Some? <==> |s| > 1 && AllDigits(s[1..]) && DigitsValue(s[1..]) <= Int64Max)
              && (r.Some? ==> r.value == DigitsValue(s[1..]))
    ensures |s| > 0 && s[0] == '-' ==>
              (r.Some? <==> |s| > 1 && AllDigits(s[1..]) && DigitsValue(s[1..]) <= -Int64Min)
              && (r.Some? ==> r.value == -(DigitsValue(s[1..]) as int))
  {
    var signed := |s| > 0 && (s[0] == '+' || s[0] == '-');
    var digits := if signed then s[1..] else s;
    if |digits| == 0 || !AllDigits(digits) then None
    else
      var v: int := if signed && s[0] == '-' then -(DigitsValue(digits) as int) else DigitsValue(digits);
      if Int64Min <= v <= Int64Max then Some(v) else None
  }

  /** String interpolation of a natural number: its decimal digits. */
  function Decimal(n: nat): (s: string)
    ensures |s| >= 1 && AllDigits(s)
    ensures n < 10 ==> s == [DigitChar(n)]
    ensures n > 0 ==> s[0] != '0'
  {
    if n < 10 then [DigitChar(n)] else Decimal(n / 10) + [DigitChar(n % 10)]
  }

  /** Reading back an interpolated number gives the number. */
  lemma {:induction false} DecimalValue(n: nat)
    ensures DigitsValue(Decimal(n)) == n
  {
    if n >= 10 {
      DecimalValue(n / 10);
      var s := Decimal(n);
      assert s[..|s| - 1] == Decimal(n / 10);
    }
  }

  lemma ParseDecimal(n: nat)
    requires n <= Int64Max
    ensures ParseInt(Decimal(n)) == Some(n)
  {
    DecimalValue(n);
  }

  predicate StartsWith(s: string, prefix: string) {
    |prefix| <= |s| && s[..|prefix|] == prefix
  }

  /** `p` occurs in `s` starting at position `i`. */
  predicate OccursAt(s: string, p: string, i: int) {
    0 <= i && i + |p| <= |s| && s[i..i + |p|] == p
  }

  /** `p` occurs somewhere in `s`. */
  predicate Contains(s: string, p: string) {
    exists i | 0 <= i <= |s| :: OccursAt(s, p, i)
  }

  /** `replacingOccurrences(of: p, with: "")`: one left-to-right pass that drops
      every non-overlapping occurrence of `p`. */
  function RemoveAll(s: string, p: string): (r: string)
    requires |p| > 0
    ensures |r| <= |s|
    ensures Contains(s, p) ==> |r| <= |s| - |p|
    decreases |s|
  {
    if |s| == 0 then []
    else if StartsWith(s, p) then RemoveAll(s[|p|..], p)
    else
      ContainsTail(s, p);
      [s[0]] + RemoveAll(s[1..], p)
  }

  /** An occurrence that is not at the front is an occurrence in the tail. */
  lemma ContainsTail(s: string, p: string)
    requires |s| > 0 && !StartsWith(s, p)
    ensures Contains(s, p) ==> Contains(s[1..], p)
  {
    if Contains(s, p) {
      var i :| 0 <= i <= |s| && OccursAt(s, p, i);
      if i == 0 {
        assert false;
      }
      assert s[1..][i - 1..i - 1 + |p|] == s[i..i + |p|];
      assert OccursAt(s[1..], p, i - 1);
    }
  }

  /** A string without any occurrence of `p` is left as it is. */
  lemma {:induction false} RemoveAllAbsent(s: string, p: string)
    requires |p| > 0 && !Contains(s, p)
    ensures RemoveAll(s, p) == s
    decreases |s|
  {
    if |s| > 0 {
      assert !StartsWith(s, p) by {
        if StartsWith(s, p) {
          assert OccursAt(s, p, 0);
        }
      }
      assert !Contains(s[1..], p) by {
        if Contains(s[1..], p) {
          var t := s[1..];
          var i :| 0 <= i <= |t| && OccursAt(t, p, i);
          assert t[i..i + |p|] == s[i + 1..i + 1 + |p|];
          assert OccursAt(s, p, i + 1);
        }
      }
      RemoveAllAbsent(s[1..], p);
    }
  }

  /** Stripping a leading prefix that does not occur again leaves the rest. */
  lemma StripPrefix(p: string, rest: string)
    requires |p| > 0 && !Contains(rest, p)
    ensures RemoveAll(p + rest, p) == rest
  {
    assert StartsWith(p + rest, p);
    assert (p + rest)[|p|..] == rest;
    RemoveAllAbsent(rest, p);
  }
}

=== FILE: wrappers.dfy ===
/** Optional values and results with an error, the shapes the plug-in's
    Swift code expresses with optionals and `throws`. */
module Wrappers {

  /** A value that may be missing (Swift's `T?`). */
  datatype Option<+T> = None | Some(value: T)

  /** A computation that either produced a value or threw an error. */
  datatype Result<+T, +E> = Success(value: T) | Failure(error: E)
}
